=== FILE: README.md ===
# Text utilities: selection, head, uniq and cat cores

A Dafny model of the logic inside four small Rust command-line utilities.

- **cutr** is the main part. It covers the position-list parser `parse_pos`, which turns `1,3-5,8` into zero-based positions. It also covers the byte, character and field extractors that this list drives, and the delimiter and mode checks of `get_args`.
- **headr**: the count validator `parse_positive_int` and its error prefixes, "first N lines" as a prefix of the input, byte mode, and the `==> name <==` header rule across several files.
- **uniqr**: the adjacent-duplicate grouping loop of `read_line`, a two-variable state machine (`prev_line`, `count`), with the `print` closure and its `{:>4}` count column.
- **catr**: the `-n` / `-b` line numbering of `process_file`, and the per-file loop of `run`.

Modules:

- `Outcomes`: `Option`, and `Outcome = Ok | Err | Panic`. A Rust panic is kept as an explicit value, so a contract can say exactly which inputs reach it.
- `Decimal`: `str::parse::<usize>` on a 64-bit target: an optional `+`, errors `Empty`, `InvalidDigit` and `PosOverflow`, digits checked before overflow. It also holds decimal `Display` and the `{:>w}` right alignment.
- `Text`: `str::split`, `str::trim_end` (the Unicode White_Space set), and how `BufRead::read_line` and `BufRead::lines` cut a stream into lines.
- `Utf8`: `str::as_bytes` as the UTF-8 encoding of RFC 3629, section 3.
- `Selection`: the generic `Select<T>(xs, pos)`, that is, `pos.iter().filter_map(|p| xs.get(*p))`. The three extractors are thin wrappers around it.
- `Cut`, `Head`, `Uniq`, `Cat`: one module per utility.

How `parse_pos` (cutr/src/lib.rs:29-62) behaves, as the model has it:

- Each comma-separated token is matched against `(\d+)?-(\d+)?` (line 31). The pattern is not anchored and both groups are optional, so a token is read as a range exactly when it holds a `-` (line 33). Any other token goes to `parse` (line 49).
- The two bounds of a range are the digit runs just before and just after the token's first `-`. The other characters of the token play no part.
- A range with no first or no second bound (`-3`, `4-`, `-`) indexes a capture group that did not match (lines 34-35), and the program panics. The model writes this as `Panic("no group at index 'i'")`.
- A range is accepted only when its first bound is below its second (line 37). Otherwise the error names the two numbers as parsed, so `007-3` reports 7 and 3 (lines 42-46).
- A range from 0 (`0-3`) passes the test of line 37. It panics later, when line 61 subtracts 1 from 0. The model writes this as `Panic("attempt to subtract with overflow")`, the behaviour of a build with overflow checks on.
- The subtraction of line 61 runs only after every token has been read. A range from 0 followed by a failing token therefore gives that token's error, not the panic.

In cut's `run`, a csv record that cannot be read ends the whole run through `?` (cutr/src/lib.rs:206). It is not skipped.

## Model

| member | source | states |
|---|---|---|
| `Cut.ExpandToken` | cutr/src/lib.rs:33-58 | a token without `-` gives its value k >= 1 or fails with `IllegalValue(token)`; a token with `-` never fails as an illegal value, and when it succeeds it gives an ascending run `lo..hi` with `lo < hi` |
| `Cut.RangeTokenParts` | cutr/src/lib.rs:31-35 | the two captured bounds are the digit runs adjacent to the first `-`; characters before and after them are ignored |
| `Cut.ExpandRangeToken` | cutr/src/lib.rs:37-47 | `lo-hi` gives the one-based run `lo, ..., hi` when `lo < hi`, and `InvertedRange(lo, hi)` otherwise, `lo == hi` included |
| `Cut.MissingLowerBoundPanics` | cutr/src/lib.rs:33-34 | a token whose first `-` has no digit before it panics on the missing first group, whatever follows |
| `Cut.MissingUpperBoundPanics` | cutr/src/lib.rs:34-35 | a token with a first bound but no digit after its first `-` panics on the missing second group |
| `Cut.ZeroBased` | cutr/src/lib.rs:61 | every position becomes one less, order and length kept |
| `Cut.ParsePosSingle` | cutr/src/lib.rs:49-56 | a single token denoting k >= 1 parses to `[k-1]`; `0`, the empty token and non-numbers fail with `illegal list value` naming the token |
| `Cut.ParsePosRange` | cutr/src/lib.rs:37-40 | `lo-hi` with 1 <= lo < hi parses to `lo-1, ..., hi-1`, ascending, hi-lo+1 entries |
| `Cut.ParsePosInverted` | cutr/src/lib.rs:41-46 | `lo-hi` with lo >= hi fails with the error naming both numbers |
| `Cut.ParsePosZeroStart` | cutr/src/lib.rs:37-61 | a range starting at 0 passes the order test and panics on the final subtraction |
| `Cut.ParsePos` | cutr/src/lib.rs:29-62 | the list fails with exactly the first token failure, if any, a token's panic passed on with its reason; otherwise it panics with the subtraction overflow iff some token gives position 0, and else gives the tokens' positions, each one less |
| `Cut.CollectFirstFailure` | cutr/src/lib.rs:32-59 | the tokens are read in order and all of them succeed, or the result is the failure of the first token that fails |
| `Cut.CollectAppend` | cutr/src/lib.rs:32-59 | reading tokens `a + b` is reading `a` and then `b`: values concatenated, the first failure wins |
| `Cut.ParsePosAppend` | cutr/src/lib.rs:32-61 | two lists joined by `,` give the positions of the first followed by those of the second, duplicates kept; an error or a token's panic in the first list decides the whole list; a first list whose tokens all read, even one that would panic on the final subtraction, leaves a failing second list to decide |
| `Cut.ParsePosExample` | cutr/src/lib.rs:29-62 | `1,3-5,8` parses to `[0, 2, 3, 4, 7]` |
| `Cut.FixedParsePosAgrees` | cutr/src/lib.rs:29-62 | the corrected parser never panics, and agrees with `parse_pos` on every list `parse_pos` accepts |
| `Cut.FixedParsePosZeroStart` | cutr/src/lib.rs:37-61 | the corrected parser rejects `0-hi` as an illegal list value |
| `Cut.FixedParsePosMissingBound` | cutr/src/lib.rs:33-35 | a range with no first bound panics as written and is an illegal list value when corrected |
| `Selection.Select` | cutr/src/lib.rs:152-154 | the result is the element at each in-range position, in position order, and at most one per position |
| `Selection.SelectAppend` | cutr/src/lib.rs:152-154 | selecting with concatenated position lists concatenates the selections |
| `Selection.SelectMembers` | cutr/src/lib.rs:152-154 | an element is selected iff some in-range position points at it |
| `Selection.SelectAllInRange` | cutr/src/lib.rs:152-154 | with every position in range, one element per position, `r[i] == xs[pos[i]]` |
| `Cut.ExtractChars` | cutr/src/lib.rs:146-155 | an empty line gives `""`; otherwise the chars at in-range positions in selection order, length <= number of positions, equal when all are in range |
| `Cut.ExtractCharsSkips` | cutr/src/lib.rs:146-155 | positions 0, 5, 1 of `ab` give `ab`: the out-of-range position is skipped and order is kept |
| `Cut.SelectedBytes` | cutr/src/lib.rs:162-166 | the buffer is the selection of the line's UTF-8 bytes at the positions, in their order: only bytes of the line, at most one per position, exactly the byte at each position when all are in range |
| `Cut.ExtractBytes` | cutr/src/lib.rs:157-168 | an empty line gives `""` whatever the positions; any other line gives the decoded selection of its bytes |
| `Cut.ExtractBytesAscii` | cutr/src/lib.rs:157-168 | on ASCII text, byte mode and char mode give the same output when the decoder maps ASCII bytes to their characters |
| `Cut.ExtractBytesSplitsCharacter` | cutr/src/lib.rs:162-167 | selecting only the lead byte of a multi-byte character gives a one-byte buffer that is the encoding of no string, so the decoder must repair it |
| `Cut.ExtractFields` | cutr/src/lib.rs:170-175 | the selection of the record's fields at the positions: the fields at in-range positions in selection order, repeats kept; empty positions give empty output |
| `Cut.ExtractFieldsReorders` | cutr/src/lib.rs:170-175 | positions 2, 0 of the record `a,b,c` give `c,a`: the order of the positions, not of the record |
| `Cut.ExtractFieldsRepeats` | cutr/src/lib.rs:170-175 | positions 0, 0 give the first field twice |
| `Cut.ExtractFieldsSkips` | cutr/src/lib.rs:170-175 | positions 1, 5 of a two-field record give only the second field |
| `Cut.CheckDelimiter` | cutr/src/lib.rs:110-117 | the delimiter is accepted iff it is one byte, a single ASCII char, and the error names the delimiter |
| `Cut.ParseOption` | cutr/src/lib.rs:119-121 | an absent list gives no positions; a present one succeeds iff `parse_pos` does, with its positions, and otherwise fails with `parse_pos`'s own error or panic |
| `Cut.Configure` | cutr/src/lib.rs:110-130 | the delimiter is checked first, then the lists in the order fields, bytes, chars, the first failing list's error or panic ending the run; fields win over bytes and bytes over chars; an error if no mode is given |
| `Decimal.ParseUsize` | cutr/src/lib.rs:49-50 | `str::parse::<usize>` succeeds iff the text is an optional `+` followed by digits whose value fits in 64 bits; the empty string is `Empty` |
| `Decimal.AccumulateMeaning` | headr/src/lib.rs:15 | the digit loop yields the value of the digits, and fails exactly on a non-digit or an overflow |
| `Decimal.ParseShow` | headr/src/lib.rs:15-16 | the decimal form of n, with or without `+`, parses back to n |
| `Decimal.ShowPaddedRoundTrip` | uniqr/src/lib.rs:68 | a right-aligned number read back without its leading spaces is the number |
| `Head.ParsePositiveInt` | headr/src/lib.rs:14-19 | accepted iff the text parses as a usize above 0, with that value; otherwise the error is the input verbatim |
| `Head.ParsePositiveIntShow` | headr/src/lib.rs:14-16 | every positive n written in decimal is accepted as n |
| `Head.ParsePositiveIntRejects` | headr/src/lib.rs:15-17 | `0`, negative and non-numeric input are rejected with the input verbatim |
| `Head.HeadArgs` | headr/src/lib.rs:54-64 | a bad line count fails with `illegal line count -- `, then a bad byte count with `illegal byte count -- `; on success both counts are the parsed values |
| `Head.TakeLines` | headr/src/lib.rs:73-86 | the printed text is a prefix of the input with at most N newlines; either the whole input or exactly N complete lines |
| `Head.TakeLinesIsFirstLines` | headr/src/lib.rs:75-82 | the printed text is exactly the first min(N, #lines) `read_line` results, verbatim |
| `Head.TakeLinesAll` | headr/src/lib.rs:75-82 | an input of at most N lines is printed whole |
| `Head.Body` | headr/src/lib.rs:108-113 | without a byte count, the body is the first N lines |
| `Head.BodyBytesAscii` | headr/src/lib.rs:88-94 | with a byte count k, the body of ASCII text is its first min(k, length) characters |
| `Head.Header` | headr/src/lib.rs:101-105 | the header is the name between `==> ` and ` <==` on a line of its own, preceded by a blank line exactly when the file is not the first argument |
| `Head.HeadRun` | headr/src/lib.rs:96-136 | one report per name; an open failure iff a named file is missing; a header iff a named file opened and there is more than one name; a header after index 0 starts with a blank line; stdin gets no header; the first `-` prints the body of the whole standard input, and in byte mode each later `-` reads on after the bytes the earlier ones took |
| `Head.ByteChunk` | headr/src/lib.rs:88-91 | one read of at most k bytes after `start` bytes: the next k bytes, fewer at the end, none past it |
| `Head.ByteChunkAppend` | headr/src/lib.rs:88-91 | two reads in a row take consecutive bytes, nothing skipped or read twice |
| `Head.StdinBody` | headr/src/lib.rs:119-127 | in line mode, and for the first `-`, the body of the whole standard input; in byte mode, the decoded k bytes after the `earlier * k` bytes the earlier `-` arguments took |
| `Head.StdinReadsContinue` | headr/src/lib.rs:119-122 | in byte mode, two `-` arguments with no `-` between them read consecutive stretches of the standard input |
| `Uniq.UniqGroups` | uniqr/src/lib.rs:65-98 | every emitted group has a count above zero |
| `Uniq.UniqGroupsMeaning` | uniqr/src/lib.rs:78-98 | the groups cover the lines in order; counts sum to the number of lines; neighbouring groups differ after `trim_end`; each group is its first line verbatim, except that a leading blank run is emitted as `""` |
| `Uniq.FlushedMeaning` | uniqr/src/lib.rs:81-98 | for either initial `prev_line`, the loop plus the final flush yields groups that partition the input as above |
| `Uniq.LastGroupFlushed` | uniqr/src/lib.rs:96-98 | for a non-empty input short of 2^64 - 2 lines, the guard after the loop writes the open group: the output ends with the group of the last line and its full count |
| `Uniq.Step` | uniqr/src/lib.rs:86-94 | one line read: the output only grows, by at most one group, and by one exactly when the line opens a new group after a counted one; the counted lines written or pending grow by one; a new group restarts the count at 1 with the line as its first line |
| `Uniq.Render` | uniqr/src/lib.rs:65-76 | without `-c` the text is the line; with `-c` it is the count right-aligned to width 4, a space, then the line |
| `Uniq.RenderRoundTrip` | uniqr/src/lib.rs:67-68 | with `-c` the count and the line can be read back from the emitted text |
| `Uniq.UniqDistinct` | uniqr/src/lib.rs:78-98 | lines with no adjacent repeats and a non-blank first line form one group per line, each of count 1 |
| `Uniq.UniqOutput` | uniqr/src/lib.rs:65-98 | empty input gives empty output; without `-c`, text with no adjacent repeats and a non-blank first line is written back unchanged |
| `Uniq.LeadingBlankLineLost` | uniqr/src/lib.rs:79-89 | a blank first line is emitted as `""` as written, but as `"\n"` by the corrected loop |
| `Uniq.CorrectedGroupsMeaning` | uniqr/src/lib.rs:78-98 | with no initial group, every group is emitted as its own first line |
| `Uniq.CorrectedIdentity` | uniqr/src/lib.rs:78-98 | with the corrected loop, text with no adjacent repeats is written back unchanged, whatever its first line |
| `Cat.ProcessFile` | catr/src/lib.rs:58-80 | one output line per input line; `-n` numbers line i as i; `-b` alone numbers non-empty lines by the count of non-empty lines so far and leaves empty lines empty; neither flag copies lines; `-n` wins over `-b` |
| `Cat.NonBlankNumbersStart` | catr/src/lib.rs:65-68 | under `-b` the first non-empty line gets number 1 |
| `Cat.NonBlankNumbersConsecutive` | catr/src/lib.rs:65-71 | under `-b` consecutive non-empty lines get consecutive numbers, whatever empty lines lie between |
| `Cat.Numbered` | catr/src/lib.rs:63 | a numbered line is spaces, then the decimal number, filling width max(6, digits), then a tab, then the line; the number part holds no tab |
| `Cat.NumberedRoundTrip` | catr/src/lib.rs:63 | a numbered line splits at its first tab into the right-aligned number and the line |
| `Cat.Source` | catr/src/lib.rs:51-56 | a file name gives the file or nothing; the first `-` gives the standard input, and every later `-` gives the empty text |
| `Cat.CatRun` | catr/src/lib.rs:82-90 | one report per name; an open failure iff the file is missing; every other input is numbered on its own |
| `Cat.RepeatedStdinEmpty` | catr/src/lib.rs:58-60 | a `-` after an earlier `-` prints nothing, because the first one read the standard input to its end |
| `Cat.NumbersRestart` | catr/src/lib.rs:58-60 | numbering starts again for every input: the first non-empty line of each file is 1 under `-b`, and line j is j+1 under `-n` |
| `Text.SplitOn` | cutr/src/lib.rs:32 | `split(',')` gives at least one piece, none holding a comma, and the pieces joined with commas give back the input |
| `Text.TrimEndMeaning` | uniqr/src/lib.rs:87 | `trim_end` keeps the longest prefix not ending in white space and drops only white space |
| `Text.Lines` | catr/src/lib.rs:60 | one line per `read_line` result, none holding a newline; each result is its line followed by nothing at the end of the input, a newline, or a carriage return and newline |
| `Text.ReadLines` | uniqr/src/lib.rs:82 | the successive `read_line` results concatenate to the input, and each one except the last ends in a newline |
| `Utf8.EncodeAscii` | cutr/src/lib.rs:162 | on ASCII text the byte view has one byte per char, with the char's code as its value |

## Findings

| source | as written | input that shows it | evidently intended | confidence | as-written member | corrected member |
|---|---|---|---|---|---|---|
| cutr/src/lib.rs:34-61 | a range with a missing bound indexes an absent capture group, and a range from 0 passes `n1 < n2` and then subtracts 1 from 0; both panic | `-3`, `0-3` | report an illegal list value, as for `0` | high (not executed) | `Cut.ParsePosZeroStart`, `Cut.MissingLowerBoundPanics` | `Cut.FixedParsePosAgrees` |
| uniqr/src/lib.rs:79-89 | `prev_line` starts as `""`, so leading lines that are blank after `trim_end` join an initial group, which is emitted as `""` without their newline | `"\nb\n"` is written as `"b\n"` | the first line always opens a group and is emitted verbatim | high (not executed) | `Uniq.LeadingBlankLineLost` | `Uniq.CorrectedIdentity` |

The model keeps the program as written for every utility. The corrected parser (`Cut.FixedParsePos`) and the corrected loop (`Uniq.CorrectedGroups`) are defined next to it with their properties proved. `Cut.Configure` and `Uniq.UniqOutput` follow the code as written.

## Left out

- Command-line parsing with clap: help text, defaults and conflicts. Only the checks `get_args` applies to the parsed values are modelled.
- Opening files, stdin and printing are left out. Inputs are given as text: a function from file names to `Option<string>`, and a string for stdin. Outputs are values.
- The I/O errors that `read_line` and `lines()` raise are left out. That includes their error on invalid UTF-8.
- The csv reader and writer in cut's `run` belong to a foreign library. A record is an already split `seq<string>`, and quoting and escaping are not modelled.
- cut's `run` loop over files and lines only applies the extractors line by line, so it is not modelled.
- `String::from_utf8_lossy` is a parameter `decode`. The only assumption made about it is that it maps ASCII bytes to their characters.
- `Head.HeadRun`: in line mode, gives the whole standard input to every `-`, which the program never does for a second `-`. In line mode the program wraps the standard input in a fresh buffered reader for each `-` (headr/src/lib.rs:124), so a later `-` reads on from where the earlier reader stopped, less what that reader had buffered but not printed. How much that is depends on the buffer size and on how the operating system delivers the input, so the model does not compute it. Byte mode (headr/src/lib.rs:121) has no such reader and is modelled: each `-` reads on after the bytes the earlier ones took, under the single-read assumption stated for `Head.Body`.
- `Cat.CatRun`: a terminal can deliver more input after an end-of-file, so a second `-` may read something there. The model gives it the empty text, which is what a file or a pipe gives.
- `Cat.ProcessFile`: does not model the overflow of the `i32` counter `last_num` (catr/src/lib.rs:59) after 2^31 - 1 non-empty lines. The line numbers are unbounded in the model.
- `Head.Body`: the byte mode assumes that the single `read()` of `read_bytes` returns min(k, length) bytes. The operating system may return fewer.
- The regex class `\d` is Unicode-aware in the Rust regex crate. The model's digit class is ASCII `0`-`9` only.
- Panics use overflow-checked semantics. A build without overflow checks would wrap `0 - 1` to `usize::MAX` instead of panicking at cutr/src/lib.rs:61.
- `Uniq.UniqGroupsMeaning`: requires fewer than 2^64 - 2 input lines, because the u64 counter is not modelled as wrapping on increment.
- Decimal formatting is modelled for non-negative integers only. The widths are 4 and 6, and longer numbers are not cut.
- grepr, findr, wcr (whose `run` is an empty stub) and echor are not part of this model.

=== FILE: cat.dfy ===
/** `catr` (catr/src/lib.rs): line numbering in `process_file` and the loop
    over the named inputs in `run`.
 */
module Cat {
  import opened Outcomes
  import opened Decimal
  import opened Text

  datatype CatConfig = CatConfig(numberLines: bool, numberNonblank: bool)

  /** The number of non-empty lines in `lines`. */
  function NonBlankCount(lines: seq<string>): nat
    decreases |lines|
  {
    if lines == [] then 0
    else NonBlankCount(lines[..|lines| - 1]) + (if lines[|lines| - 1] != "" then 1 else 0)
  }

  /** A numbered line: the number right-aligned to width 6, a tab, the
      line. */
  function Numbered(n: nat, line: string): (r: string)
    ensures var k, d := |r| - |line| - 1, Show(n);
      && k == (if |d| < 6 then 6 else |d|)
      && r[k] == '\t' && r[k + 1..] == line && '\t' !in r[..k]
      && r[k - |d|..k] == d && forall j | 0 <= j < k - |d| :: r[j] == ' '
  {
    var p := PadLeft(Show(n), 6);
    PaddedNumber(n);
    NumberedLayout(p, Show(n), line);
    p + "\t" + line
  }

  /** The layout facts of a numbered line, for any padded number `p` of the
      digits `d`. */
  lemma NumberedLayout(p: string, d: string, line: string)
    requires |p| == (if |d| < 6 then 6 else |d|) && '\t' !in p
    requires p[|p| - |d|..] == d && forall j | 0 <= j < |p| - |d| :: p[j] == ' '
    ensures var r, k := p + "\t" + line, |p|;
      && k == |r| - |line| - 1
      && r[k] == '\t' && r[k + 1..] == line && '\t' !in r[..k]
      && r[k - |d|..k] == d && forall j | 0 <= j < k - |d| :: r[j] == ' '
  {
    var r := p + "\t" + line;
    assert r[..|p|] == p && r[|p| + 1..] == line;
    assert r[|p| - |d|..|p|] == p[|p| - |d|..];
  }

  /** What `process_file` prints as line `i` of an input. */
  function Expected(cfg: CatConfig, lines: seq<string>, i: nat): string
    requires i < |lines|
  {
    if cfg.numberLines then Numbered(i + 1, lines[i])
    else if cfg.numberNonblank then
      (if lines[i] == "" then "" else Numbered(NonBlankCount(lines[..i + 1]), lines[i]))
    else lines[i]
  }

  /** `process_file`: the lines printed for one input, each without the
      newline `println!` adds.  With `-n` every line is numbered from 1;
      otherwise with `-b` every non-empty line is numbered by how many
      non-empty lines have been seen so far, and an empty line stays empty;
      with neither flag the lines are printed unchanged. */
  method ProcessFile(cfg: CatConfig, lines: seq<string>) returns (out: seq<string>)
    ensures |out| == |lines|
    ensures cfg.numberLines ==> forall i | 0 <= i < |lines| :: out[i] == Numbered(i + 1, lines[i])
    ensures !cfg.numberLines && cfg.numberNonblank ==> forall i | 0 <= i < |lines| ::
      out[i] == if lines[i] == "" then "" else Numbered(NonBlankCount(lines[..i + 1]), lines[i])
    ensures !cfg.numberLines && !cfg.numberNonblank ==> out == lines
  {
    out := [];
    var lastNum := 0;
    var lineNum := 0;
    while lineNum < |lines|
      invariant lineNum <= |lines| && |out| == lineNum
      invariant !cfg.numberLines && cfg.numberNonblank ==> lastNum == NonBlankCount(lines[..lineNum])
      invariant forall i | 0 <= i < lineNum :: out[i] == Expected(cfg, lines, i)
    {
      var line := lines[lineNum];
      NonBlankCountStep(lines, lineNum);
      var printed;
      if cfg.numberLines {
        printed := Numbered(lineNum + 1, line);
      } else if cfg.numberNonblank {
        if line != "" {
          lastNum := lastNum + 1;
          printed := Numbered(lastNum, line);
        } else {
          printed := "";
        }
      } else {
        printed := line;
      }
      assert printed == Expected(cfg, lines, lineNum);
      ExtendPrinted(cfg, lines, out, printed);
      out := out + [printed];
      lineNum := lineNum + 1;
    }
  }

  /** Appending the line expected at position |out| keeps the loop's invariant. */
  lemma ExtendPrinted(cfg: CatConfig, lines: seq<string>, out: seq<string>, printed: string)
    requires |out| < |lines| && forall i | 0 <= i < |out| :: out[i] == Expected(cfg, lines, i)
    requires printed == Expected(cfg, lines, |out|)
    ensures forall i | 0 <= i < |out| + 1 :: (out + [printed])[i] == Expected(cfg, lines, i)
  {
  }

  // ---------------------------------------------------------------------
  // Numbering properties

  lemma {:induction false} NonBlankCountAppend(a: seq<string>, b: seq<string>)
    ensures NonBlankCount(a + b) == NonBlankCount(a) + NonBlankCount(b)
    decreases |b|
  {
    if b == [] {
      assert a + b == a;
    } else {
      var front := b[..|b| - 1];
      assert (a + b)[..|a + b| - 1] == a + front;
      assert (a + b)[|a + b| - 1] == b[|b| - 1];
      NonBlankCountAppend(a, front);
    }
  }

  lemma NonBlankCountStep(lines: seq<string>, k: nat)
    requires k < |lines|
    ensures NonBlankCount(lines[..k + 1]) == NonBlankCount(lines[..k]) + if lines[k] != "" then 1 else 0
  {
    assert lines[..k + 1][..k] == lines[..k];
  }

  lemma {:induction false} NonBlankCountBlank(lines: seq<string>)
    requires forall k | 0 <= k < |lines| :: lines[k] == ""
    ensures NonBlankCount(lines) == 0
    decreases |lines|
  {
    if lines != [] {
      NonBlankCountBlank(lines[..|lines| - 1]);
    }
  }

  /** With `-b`, the non-empty lines are numbered 1, 2, 3, ... in order:
      the first one gets 1, and each next one gets one more than the one
      before, whatever empty lines lie between. */
  lemma NonBlankNumbersConsecutive(lines: seq<string>, i: nat, j: nat)
    requires i < j < |lines| && lines[i] != "" && lines[j] != ""
    requires forall k | i < k < j :: lines[k] == ""
    ensures NonBlankCount(lines[..j + 1]) == NonBlankCount(lines[..i + 1]) + 1
  {
    var between := lines[i + 1..j];
    assert lines[..j + 1] == lines[..i + 1] + between + [lines[j]];
    NonBlankCountAppend(lines[..i + 1] + between, [lines[j]]);
    NonBlankCountAppend(lines[..i + 1], between);
    NonBlankCountBlank(between);
    assert NonBlankCount([lines[j]]) == 1 by {
      assert [lines[j]][..0] == [];
    }
  }

  lemma NonBlankNumbersStart(lines: seq<string>, i: nat)
    requires i < |lines| && lines[i] != ""
    requires forall k | 0 <= k < i :: lines[k] == ""
    ensures NonBlankCount(lines[..i + 1]) == 1
  {
    NonBlankCountBlank(lines[..i]);
    assert lines[..i + 1][..i] == lines[..i];
  }

  /** The index of the first tab, or the length when there is none. */
  function TabIndex(s: string): (k: nat)
    ensures k <= |s|
    ensures forall j | 0 <= j < k :: s[j] != '\t'
    ensures k < |s| ==> s[k] == '\t'
    decreases |s|
  {
    if s == [] || s[0] == '\t' then 0 else 1 + TabIndex(s[1..])
  }

  lemma {:induction false} TabIndexAt(s: string, k: nat)
    requires k < |s| && s[k] == '\t'
    requires forall j | 0 <= j < k :: s[j] != '\t'
    ensures TabIndex(s) == k
  {
  }

  /** A right-aligned number holds no tab, and dropping its leading
      spaces gives back the digits. */
  lemma PaddedNumber(n: nat)
    ensures var p := PadLeft(Show(n), 6);
      (forall j | 0 <= j < |p| :: p[j] != '\t') && '\t' !in p && DropSpaces(p) == Show(n)
  {
    var digits := Show(n);
    var p := PadLeft(digits, 6);
    var w := |p| - |digits|;
    forall j | 0 <= j < |p| ensures p[j] != '\t' {
      if j >= w {
        assert p[j] == digits[j - w];
        assert IsDigit(digits[j - w]);
      }
    }
    DropSpacesShow(n, 6);
  }

  /** A numbered line can be taken apart again: the text after the first
      tab is the line, and the text before it is the number, right-aligned
      with spaces. */
  lemma NumberedRoundTrip(n: nat, line: string)
    requires n <= USIZE_MAX
    ensures var s := Numbered(n, line);
      var k := TabIndex(s);
      k < |s| && s[k + 1..] == line && ParseUsize(DropSpaces(s[..k])) == Ok(n)
  {
    PaddedNumber(n);
    SplitAtTab(PadLeft(Show(n), 6), line);
    ParseShow(n);
  }

  lemma SplitAtTab(p: string, line: string)
    requires forall j | 0 <= j < |p| :: p[j] != '\t'
    ensures var s := p + "\t" + line;
      TabIndex(s) == |p| && s[..|p|] == p && s[|p| + 1..] == line
  {
    var s := p + "\t" + line;
    assert s[|p|] == '\t';
    TabIndexAt(s, |p|);
    assert s[..|p|] == p;
    assert s[|p| + 1..] == line;
  }

  // ---------------------------------------------------------------------
  // Files

  /** What the run does for one named input. */
  datatype CatReport = Printed(lines: seq<string>) | OpenFailed(name: string)

  /** The text read for the name at index `i`: the file's contents, or
      `None` when the file cannot be opened; for `-`, the standard input,
      which the first `-` reads to its end so that every later `-` finds
      nothing left. */
  function Source(names: seq<string>, i: nat, files: string -> Option<string>, stdin: string): (r: Option<string>)
    requires i < |names|
    ensures names[i] != "-" ==> r == files(names[i])
    ensures names[i] == "-" && "-" !in names[..i] ==> r == Some(stdin)
    ensures names[i] == "-" && "-" in names[..i] ==> r == Some("")
  {
    if names[i] != "-" then files(names[i])
    else if "-" in names[..i] then Some("")
    else Some(stdin)
  }

  /** `run`: each named input in turn.  `files` stands for the file system
      and `stdin` for the standard input.  An input that cannot be opened
      is reported and skipped; every other input is numbered on its own. */
  function CatRun(cfg: CatConfig, names: seq<string>, files: string -> Option<string>, stdin: string)
    : (r: seq<CatReport>)
    ensures |r| == |names|
    ensures forall i | 0 <= i < |r| :: r[i].OpenFailed? <==> names[i] != "-" && files(names[i]).None?
    ensures forall i | 0 <= i < |r| :: r[i].OpenFailed? ==> r[i].name == names[i]
    ensures forall i | 0 <= i < |r| :: r[i].Printed? ==>
      var lines := Lines(Source(names, i, files, stdin).value);
      |r[i].lines| == |lines| && forall j | 0 <= j < |lines| :: r[i].lines[j] == Expected(cfg, lines, j)
  {
    seq(|names|, i requires 0 <= i < |names| =>
      match Source(names, i, files, stdin)
      case None => OpenFailed(names[i])
      case Some(text) => Printed(Numbering(cfg, Lines(text))))
  }

  /** A `-` after an earlier `-` prints nothing: the standard input has
      already been read to its end. */
  lemma RepeatedStdinEmpty(cfg: CatConfig, names: seq<string>, files: string -> Option<string>, stdin: string,
                           i: nat, k: nat)
    requires k < i < |names| && names[k] == "-" && names[i] == "-"
    ensures CatRun(cfg, names, files, stdin)[i] == Printed([])
  {
    assert names[..i][k] == "-";
    assert ReadLines("") == [];
  }

  /** The numbered lines of one input, as `ProcessFile` computes them. */
  function Numbering(cfg: CatConfig, lines: seq<string>): (out: seq<string>)
    ensures |out| == |lines| && forall j | 0 <= j < |lines| :: out[j] == Expected(cfg, lines, j)
  {
    seq(|lines|, j requires 0 <= j < |lines| => Expected(cfg, lines, j))
  }

  /** The counters start again for every input: in every input the first
      non-empty line gets number 1 under `-b`, and line `j` gets `j + 1`
      under `-n`, whatever was printed for the inputs before it. */
  lemma NumbersRestart(cfg: CatConfig, names: seq<string>, files: string -> Option<string>, stdin: string,
                       i: nat, j: nat)
    requires i < |names| && Source(names, i, files, stdin).Some?
    requires var lines := Lines(Source(names, i, files, stdin).value);
      j < |lines| && lines[j] != "" && forall k | 0 <= k < j :: lines[k] == ""
    requires cfg.numberLines || cfg.numberNonblank
    ensures var lines := Lines(Source(names, i, files, stdin).value);
      CatRun(cfg, names, files, stdin)[i] ==
        Printed(CatRun(cfg, names, files, stdin)[i].lines) &&
      CatRun(cfg, names, files, stdin)[i].lines[j] == Numbered(if cfg.numberLines then j + 1 else 1, lines[j])
  {
    var lines := Lines(Source(names, i, files, stdin).value);
    if !cfg.numberLines {
      NonBlankNumbersStart(lines, j);
    }
  }
}

=== FILE: cut.dfy ===
/** The selection engine of `cutr` (cutr/src/lib.rs): the parser of
    position lists such as `1,3-5,8`, the byte, character and field
    extractors it drives, and the checks that turn the command-line values
    into a configuration.
 */
module Cut {
  import opened Outcomes
  import opened Decimal
  import opened Text
  import opened Utf8
  import opened Selection

  /** The errors `cutr` reports before any input is read. */
  datatype CutError =
    | IllegalValue(token: string)        // a single value that is not a positive integer
    | InvertedRange(lo: nat, hi: nat)    // a range whose first number is not below its second
    | BadBound(kind: IntError)           // a range bound that does not parse as a usize
    | BadDelimiter(delimiter: string)    // a delimiter that is not exactly one byte
    | NoMode                             // none of --fields, --bytes, --chars

  /** The text each error displays. */
  function Message(e: CutError): string {
    match e
    case IllegalValue(t) => "illegal list value: \"" + t + "\""
    case InvertedRange(lo, hi) =>
      "First number in range (" + Show(lo) + ") must be lower than the second number(" + Show(hi) + ")"
    case BadBound(k) => IntErrorText(k)
    case BadDelimiter(d) => "--delim \"" + d + "\" must be a single byte"
    case NoMode => "Must have --fields, --bytes, or --chars"
  }

  /** The message of the panic raised by `&cap[i]` on a group that did not
      take part in the match. */
  function NoGroup(i: nat): string
    requires i < 10
  {
    "no group at index '" + [DigitChar(i)] + "'"
  }

  const SubtractOverflow: string := "attempt to subtract with overflow"

  // ---------------------------------------------------------------------
  // The regular expression (\d+)?-(\d+)? on one token

  function FirstIndexOf(s: string, c: char): (i: nat)
    requires c in s
    ensures i < |s| && s[i] == c && c !in s[..i]
    decreases |s|
  {
    if s[0] == c then 0
    else
      var i := FirstIndexOf(s[1..], c);
      assert s[..i + 1] == [s[0]] + s[1..][..i];
      i + 1
  }

  /** Where the longest run of digits that ends `s` starts. */
  function DigitRunStart(s: string): (k: nat)
    ensures k <= |s| && AllDigits(s[k..])
    ensures k == 0 || !IsDigit(s[k - 1])
    decreases |s|
  {
    if s == [] || !IsDigit(s[|s| - 1]) then |s|
    else
      var k := DigitRunStart(s[..|s| - 1]);
      assert s[k..] == s[..|s| - 1][k..] + [s[|s| - 1]];
      k
  }

  /** How long the run of digits that starts `s` is. */
  function DigitRunLength(s: string): (k: nat)
    ensures k <= |s| && AllDigits(s[..k])
    ensures k == |s| || !IsDigit(s[k])
    decreases |s|
  {
    if s == [] || !IsDigit(s[0]) then 0
    else
      var k := DigitRunLength(s[1..]);
      assert s[..k + 1] == [s[0]] + s[1..][..k];
      k + 1
  }

  /** The two groups of the unanchored match of `(\d+)?-(\d+)?` in a token
      that holds a `-`: the leftmost match starts at the digit run just
      before the first `-`, and the second group is the digit run just
      after it.  An empty string stands for a group that took no part. */
  function RangeCaptures(tok: string): (caps: (string, string))
    requires '-' in tok
    ensures AllDigits(caps.0) && AllDigits(caps.1)
  {
    var m := FirstIndexOf(tok, '-');
    var before := tok[..m];
    var after := tok[m + 1..];
    (before[DigitRunStart(before)..], after[..DigitRunLength(after)])
  }

  /** The one-based positions `lo, lo + 1, ..., hi` pushed for a range. */
  function Span(lo: nat, hi: nat): (r: seq<nat>)
    ensures |r| == if lo <= hi then hi - lo + 1 else 0
    ensures forall i | 0 <= i < |r| :: r[i] == lo + i
    decreases hi - lo + 1
  {
    if lo > hi then [] else [lo] + Span(lo + 1, hi)
  }

  /** One comma-separated token of a position list, as the loop body of
      `parse_pos` handles it: the one-based positions it pushes, the error
      it returns, or the panic it raises. */
  function ExpandToken(tok: string): (r: Outcome<seq<nat>, CutError>)
    ensures '-' !in tok ==> r.Ok? || r == Err(IllegalValue(tok))
    ensures '-' !in tok && r.Ok? ==> IsUsizeLiteral(tok) && r.value == [LiteralValue(tok)] && LiteralValue(tok) > 0
    ensures '-' in tok ==> !(r.Err? && r.error.IllegalValue?)
    ensures '-' in tok && r.Ok? ==> exists lo, hi :: 0 <= lo < hi && r.value == Span(lo, hi)
  {
    if '-' in tok then
      var (lo, hi) := RangeCaptures(tok);
      if lo == [] then Panic(NoGroup(1))
      else
        match ParseUsize(lo)
        case Err(k) => Err(BadBound(k))
        case Panic(m) => Panic(m)
        case Ok(n1) =>
          if hi == [] then Panic(NoGroup(2))
          else
            match ParseUsize(hi)
            case Err(k) => Err(BadBound(k))
            case Panic(m) => Panic(m)
            case Ok(n2) =>
              if n1 < n2 then Ok(Span(n1, n2)) else Err(InvertedRange(n1, n2))
    else
      match ParseUsize(tok)
      case Ok(n) => if n > 0 then Ok([n]) else Err(IllegalValue(tok))
      case _ => Err(IllegalValue(tok))
  }

  /** The loop of `parse_pos` over the tokens: expansions are concatenated
      in token order, and the first token that fails ends the loop. */
  function Collect(tokens: seq<string>): (r: Outcome<seq<nat>, CutError>)
    decreases |tokens|
  {
    if tokens == [] then Ok([]) else Then(ExpandToken(tokens[0]), Collect(tokens[1..]))
  }

  /** The loop of `parse_pos` succeeds exactly when every token does, and
      otherwise ends with the outcome of the first token that does not
      succeed. */
  lemma {:induction false} CollectFirstFailure(tokens: seq<string>)
    ensures Collect(tokens).Ok? <==> forall i | 0 <= i < |tokens| :: ExpandToken(tokens[i]).Ok?
    ensures !Collect(tokens).Ok? ==> exists i | 0 <= i < |tokens| ::
      Collect(tokens) == ExpandToken(tokens[i]) && forall j | 0 <= j < i :: ExpandToken(tokens[j]).Ok?
    decreases |tokens|
  {
    if tokens != [] {
      var tail := tokens[1..];
      var rest := Collect(tail);
      CollectFirstFailure(tail);
      var outs := seq(|tokens|, i requires 0 <= i < |tokens| => ExpandToken(tokens[i]));
      assert forall i | 1 <= i < |tokens| :: outs[i] == ExpandToken(tail[i - 1]);
      assert rest.Ok? <==> forall i | 1 <= i < |outs| :: outs[i].Ok? by {
        if forall i | 1 <= i < |outs| :: outs[i].Ok? {
          forall i | 0 <= i < |tail| ensures ExpandToken(tail[i]).Ok? {
            assert outs[i + 1] == ExpandToken(tail[i]);
          }
        }
      }
      if !rest.Ok? {
        var k :| 0 <= k < |tail| && rest == ExpandToken(tail[k]) && forall j | 0 <= j < k :: ExpandToken(tail[j]).Ok?;
        assert rest == outs[k + 1];
        forall j | 1 <= j < k + 1 ensures outs[j].Ok? {
          assert outs[j] == ExpandToken(tail[j - 1]);
        }
      }
      ThenFirstFailure(outs, rest);
    }
  }

  /** One step of the loop: a failing head wins, and otherwise the failure
      of the rest, if any. */
  lemma ThenFirstFailure(outs: seq<Outcome<seq<nat>, CutError>>, rest: Outcome<seq<nat>, CutError>)
    requires |outs| >= 1
    requires rest.Ok? <==> forall i | 1 <= i < |outs| :: outs[i].Ok?
    requires !rest.Ok? ==> exists i | 1 <= i < |outs| :: rest == outs[i] && forall j | 1 <= j < i :: outs[j].Ok?
    ensures Then(outs[0], rest).Ok? <==> forall i | 0 <= i < |outs| :: outs[i].Ok?
    ensures !Then(outs[0], rest).Ok? ==> exists i | 0 <= i < |outs| ::
      Then(outs[0], rest) == outs[i] && forall j | 0 <= j < i :: outs[j].Ok?
  {
    if outs[0].Ok? && !rest.Ok? {
      var k :| 1 <= k < |outs| && rest == outs[k] && forall j | 1 <= j < k :: outs[j].Ok?;
      assert Then(outs[0], rest) == outs[k];
    }
  }

  /** The first outcome that is not `Ok`, or both values concatenated. */
  function Then(first: Outcome<seq<nat>, CutError>, rest: Outcome<seq<nat>, CutError>)
    : Outcome<seq<nat>, CutError>
  {
    match first
    case Ok(x) => (match rest case Ok(y) => Ok(x + y) case other => other)
    case other => other
  }

  lemma ThenAssoc(p: Outcome<seq<nat>, CutError>, q: Outcome<seq<nat>, CutError>, r: Outcome<seq<nat>, CutError>)
    ensures Then(p, Then(q, r)) == Then(Then(p, q), r)
  {
    if p.Ok? && q.Ok? && r.Ok? {
      assert p.value + (q.value + r.value) == (p.value + q.value) + r.value;
    }
  }

  /** The final `map(|i| i - 1)` from one-based to zero-based positions. */
  function ZeroBased(fields: seq<nat>): (r: seq<nat>)
    requires 0 !in fields
    ensures |r| == |fields| && forall i | 0 <= i < |r| :: r[i] + 1 == fields[i]
    decreases |fields|
  {
    if fields == [] then [] else [fields[0] - 1] + ZeroBased(fields[1..])
  }

  /** `parse_pos`: a comma-separated list of positions to the zero-based
      positions it names.  The subtraction of one happens only after every
      token was read, so a range starting at 0 panics there unless a later
      token failed first. */
  function ParsePos(list: string): (r: Outcome<seq<nat>, CutError>)
    ensures var c := Collect(SplitOn(list, ','));
      (r.Err? <==> c.Err?) && (r.Err? ==> c == Err(r.error))
    ensures var c := Collect(SplitOn(list, ','));
      r.Panic? <==> c.Panic? || (c.Ok? && 0 in c.value)
    ensures var c := Collect(SplitOn(list, ','));
      c.Panic? ==> r == c
    ensures var c := Collect(SplitOn(list, ','));
      c.Ok? && 0 in c.value ==> r == Panic(SubtractOverflow)
    ensures var c := Collect(SplitOn(list, ','));
      r.Ok? ==> |r.value| == |c.value| && forall i | 0 <= i < |r.value| :: r.value[i] + 1 == c.value[i]
  {
    match Collect(SplitOn(list, ','))
    case Err(e) => Err(e)
    case Panic(m) => Panic(m)
    case Ok(fields) => if 0 in fields then Panic(SubtractOverflow) else Ok(ZeroBased(fields))
  }

  // ---------------------------------------------------------------------
  // Facts about the list parser

  lemma NotInPrefix(s: string, c: char, n: nat)
    requires n <= |s| && c !in s[..n]
    ensures forall j | 0 <= j < n :: s[j] != c
  {
    forall j | 0 <= j < n ensures s[j] != c {
      assert s[j] == s[..n][j];
    }
  }

  lemma FirstIndexAt(s: string, c: char, m: nat)
    requires m < |s| && s[m] == c && c !in s[..m]
    ensures FirstIndexOf(s, c) == m
  {
    var i := FirstIndexOf(s, c);
    NotInPrefix(s, c, m);
    NotInPrefix(s, c, i);
  }

  /** The start of the final digit run is the one point after which all
      characters are digits and before which there is none. */
  lemma DigitRunStartUnique(s: string, k: nat)
    requires k <= |s|
    requires forall j | k <= j < |s| :: IsDigit(s[j])
    requires k == 0 || !IsDigit(s[k - 1])
    ensures DigitRunStart(s) == k
  {
    var k' := DigitRunStart(s);
    AllDigitsSlices(s, k');
  }

  lemma DigitRunLengthUnique(s: string, n: nat)
    requires n <= |s|
    requires forall j | 0 <= j < n :: IsDigit(s[j])
    requires n == |s| || !IsDigit(s[n])
    ensures DigitRunLength(s) == n
  {
    var n' := DigitRunLength(s);
    AllDigitsSlices(s, n');
  }

  lemma DigitRunStartAt(pre: string, lo: string)
    requires AllDigits(lo)
    requires pre == [] || !IsDigit(pre[|pre| - 1])
    ensures DigitRunStart(pre + lo) == |pre|
  {
    var s := pre + lo;
    forall j | |pre| <= j < |s| ensures IsDigit(s[j]) {
      assert s[j] == lo[j - |pre|];
    }
    assert pre != [] ==> s[|pre| - 1] == pre[|pre| - 1];
    DigitRunStartUnique(s, |pre|);
  }

  lemma DigitRunLengthAt(hi: string, post: string)
    requires AllDigits(hi)
    requires post == [] || !IsDigit(post[0])
    ensures DigitRunLength(hi + post) == |hi|
  {
    var s := hi + post;
    forall j | 0 <= j < |hi| ensures IsDigit(s[j]) {
      assert s[j] == hi[j];
    }
    assert post != [] ==> s[|hi|] == post[0];
    DigitRunLengthUnique(s, |hi|);
  }

  /** The bounds of a range are the digit runs on both sides of the first
      `-`; whatever else the token holds is ignored. */
  lemma RangeTokenParts(pre: string, lo: string, hi: string, post: string)
    requires '-' !in pre
    requires AllDigits(lo) && AllDigits(hi)
    requires pre == [] || !IsDigit(pre[|pre| - 1])
    requires post == [] || !IsDigit(post[0])
    ensures '-' in pre + lo + "-" + hi + post
    ensures RangeCaptures(pre + lo + "-" + hi + post) == (lo, hi)
  {
    var before := pre + lo;
    var after := hi + post;
    var tok := before + ['-'] + after;
    assert tok == pre + lo + "-" + hi + post;
    var m0 := |before|;
    assert tok[m0] == '-';
    assert tok[..m0] == before;
    assert '-' !in before;
    FirstIndexAt(tok, '-', m0);
    assert tok[m0 + 1..] == after;
    DigitRunStartAt(pre, lo);
    DigitRunLengthAt(hi, post);
    assert before[|pre|..] == lo;
    assert after[..|hi|] == hi;
  }

  /** A token is the decimal form of two numbers joined by `-`: it gives
      the ascending one-based run between them when the first is smaller,
      and an error naming both numbers otherwise. */
  lemma ExpandRangeToken(lo: nat, hi: nat)
    requires lo <= USIZE_MAX && hi <= USIZE_MAX
    ensures ExpandToken(Show(lo) + "-" + Show(hi)) ==
      if lo < hi then Ok(Span(lo, hi)) else Err(InvertedRange(lo, hi))
  {
    RangeTokenParts("", Show(lo), Show(hi), "");
    assert "" + Show(lo) + "-" + Show(hi) + "" == Show(lo) + "-" + Show(hi);
    ParseShow(lo);
    ParseShow(hi);
  }

  /** A token whose first `-` has no digit before it panics on the missing
      first group, whatever follows. */
  lemma MissingLowerBoundPanics(tok: string)
    requires '-' in tok
    requires var m := FirstIndexOf(tok, '-'); m == 0 || !IsDigit(tok[m - 1])
    ensures ExpandToken(tok) == Panic(NoGroup(1))
  {
    var m := FirstIndexOf(tok, '-');
    var before := tok[..m];
    assert m > 0 ==> before[m - 1] == tok[m - 1];
    DigitRunStartUnique(before, |before|);
  }

  /** A token with a first bound but no digit after its first `-` panics
      on the missing second group. */
  lemma MissingUpperBoundPanics(lo: nat, post: string)
    requires lo <= USIZE_MAX
    requires post == [] || !IsDigit(post[0])
    ensures ExpandToken(Show(lo) + "-" + post) == Panic(NoGroup(2))
  {
    RangeWithoutUpper(Show(lo), post);
    ParseShow(lo);
    UpperGroupMissing(Show(lo) + "-" + post, Show(lo), lo);
  }

  lemma RangeWithoutUpper(first: string, post: string)
    requires AllDigits(first)
    requires post == [] || !IsDigit(post[0])
    ensures '-' in first + "-" + post && RangeCaptures(first + "-" + post) == (first, "")
  {
    RangeTokenParts("", first, "", post);
    assert "" + first + "-" + "" + post == first + "-" + post;
  }

  lemma UpperGroupMissing(tok: string, first: string, lo: nat)
    requires '-' in tok && RangeCaptures(tok) == (first, "")
    requires first != [] && ParseUsize(first) == Ok(lo)
    ensures ExpandToken(tok) == Panic(NoGroup(2))
  {
  }

  lemma {:induction false} CollectAppend(a: seq<string>, b: seq<string>)
    ensures Collect(a + b) == Then(Collect(a), Collect(b))
    decreases |a|
  {
    if a == [] {
      assert a + b == b;
      match Collect(b)
      case Ok(y) => assert [] + y == y;
      case _ =>
    } else {
      assert (a + b)[0] == a[0];
      assert (a + b)[1..] == a[1..] + b;
      CollectAppend(a[1..], b);
      ThenAssoc(ExpandToken(a[0]), Collect(a[1..]), Collect(b));
    }
  }

  lemma ZeroBasedAppend(x: seq<nat>, y: seq<nat>)
    requires 0 !in x && 0 !in y
    ensures 0 !in x + y
    ensures ZeroBased(x + y) == ZeroBased(x) + ZeroBased(y)
  {
    var l := ZeroBased(x + y);
    var r := ZeroBased(x) + ZeroBased(y);
    assert |l| == |r|;
    forall i | 0 <= i < |l| ensures l[i] == r[i] {
      if i < |x| {
        assert (x + y)[i] == x[i];
      } else {
        assert (x + y)[i] == y[i - |x|];
      }
    }
  }

  /** A single value `k` with `k >= 1` gives the one position `k - 1`;
      anything else without a `-` (`0`, the empty token, a non-number) is
      an illegal list value naming the token. */
  lemma ParsePosSingle(tok: string)
    requires '-' !in tok && ',' !in tok
    ensures IsUsizeLiteral(tok) && LiteralValue(tok) > 0 ==> ParsePos(tok) == Ok([LiteralValue(tok) - 1])
    ensures !(IsUsizeLiteral(tok) && LiteralValue(tok) > 0) ==> ParsePos(tok) == Err(IllegalValue(tok))
    ensures ParsePos(tok).Err? ==> Message(ParsePos(tok).error) == "illegal list value: \"" + tok + "\""
  {
    OneToken(tok);
    CollectOne(tok);
    if IsUsizeLiteral(tok) && LiteralValue(tok) > 0 {
      assert ZeroBased([LiteralValue(tok)]) == [LiteralValue(tok) - 1];
    }
  }

  /** A range `lo-hi` with `1 <= lo < hi` gives the ascending zero-based
      positions `lo - 1, ..., hi - 1`, which are `hi - lo + 1` entries. */
  lemma ParsePosRange(lo: nat, hi: nat)
    requires 1 <= lo < hi <= USIZE_MAX
    ensures ParsePos(Show(lo) + "-" + Show(hi)).Ok?
    ensures var r := ParsePos(Show(lo) + "-" + Show(hi)).value;
      |r| == hi - lo + 1 && forall i | 0 <= i < |r| :: r[i] == lo - 1 + i
  {
    var tok := Show(lo) + "-" + Show(hi);
    OneToken(tok);
    CollectOne(tok);
    ExpandRangeToken(lo, hi);
    var s := Span(lo, hi);
    assert 0 !in s;
  }

  /** A range whose first number is not below its second fails, naming the
      two numbers; this includes `lo == hi`. */
  lemma ParsePosInverted(lo: nat, hi: nat)
    requires hi <= lo <= USIZE_MAX
    ensures ParsePos(Show(lo) + "-" + Show(hi)) == Err(InvertedRange(lo, hi))
    ensures Message(ParsePos(Show(lo) + "-" + Show(hi)).error) ==
      "First number in range (" + Show(lo) + ") must be lower than the second number(" + Show(hi) + ")"
  {
    OneToken(Show(lo) + "-" + Show(hi));
    CollectOne(Show(lo) + "-" + Show(hi));
    ExpandRangeToken(lo, hi);
  }

  /** A range that starts at 0 passes the order test and then panics on the
      subtraction that makes positions zero-based. */
  lemma ParsePosZeroStart(hi: nat)
    requires 0 < hi <= USIZE_MAX
    ensures ParsePos("0-" + Show(hi)) == Panic(SubtractOverflow)
  {
    ZeroRangeToken(hi);
    RangeFromZero("0-" + Show(hi), hi);
  }

  /** The token of a range from 0, read as its two numbers; it holds no
      comma, so a list of it alone is one token. */
  lemma ZeroRangeToken(hi: nat)
    ensures var tok := "0-" + Show(hi);
      tok == Show(0) + "-" + Show(hi) && ',' !in tok
  {
    assert Show(0) == "0";
    NoCommaInDigits(Show(hi));
  }

  lemma NoCommaInDigits(ds: string)
    requires AllDigits(ds)
    ensures ',' !in ds
  {
  }

  lemma RangeFromZero(tok: string, hi: nat)
    requires 0 < hi <= USIZE_MAX && tok == Show(0) + "-" + Show(hi) && ',' !in tok
    ensures ParsePos(tok) == Panic(SubtractOverflow)
  {
    OneToken(tok);
    CollectOne(tok);
    ExpandRangeToken(0, hi);
    assert Span(0, hi)[0] == 0;
  }

  lemma OneToken(tok: string)
    requires ',' !in tok
    ensures SplitOn(tok, ',') == [tok]
  {
    var parts := SplitOn(tok, ',');
  }

  lemma CollectOne(tok: string)
    ensures Collect([tok]) == ExpandToken(tok)
  {
    assert [tok][1..] == [];
    match ExpandToken(tok)
    case Ok(x) => assert x + [] == x;
    case _ =>
  }

  /** The list is read token by token: two lists joined by a comma give
      the positions of the first followed by those of the second, repeats
      kept.  An error or a token's panic in the first list decides the
      whole list, whatever follows.  A first list whose tokens all read
      does not: when it fails only on the final subtraction, a failing
      second list decides instead. */
  lemma ParsePosAppend(a: string, b: string)
    ensures ParsePos(a).Ok? && ParsePos(b).Ok? ==>
      ParsePos(a + "," + b) == Ok(ParsePos(a).value + ParsePos(b).value)
    ensures ParsePos(a).Err? ==> ParsePos(a + "," + b) == ParsePos(a)
    ensures Collect(SplitOn(a, ',')).Panic? ==> ParsePos(a + "," + b) == ParsePos(a)
    ensures Collect(SplitOn(a, ',')).Ok? && !Collect(SplitOn(b, ',')).Ok? ==> ParsePos(a + "," + b) == ParsePos(b)
  {
    assert a + "," + b == a + [','] + b;
    SplitOnAppend(a, b, ',');
    CollectAppend(SplitOn(a, ','), SplitOn(b, ','));
    if ParsePos(a).Ok? && ParsePos(b).Ok? {
      ZeroBasedAppend(Collect(SplitOn(a, ',')).value, Collect(SplitOn(b, ',')).value);
    }
  }

  /** A typical position list: `1,3-5,8` names the zero-based
      positions 0, 2, 3, 4 and 7. */
  lemma ParsePosExample(list: string)
    requires list == "1,3-5,8"
    ensures ParsePos(list) == Ok([0, 2, 3, 4, 7])
  {
    var positions: seq<nat> := [0] + ([2, 3, 4] + [7]);
    assert positions == [0, 2, 3, 4, 7];
    var one, three, five, eight := Show(1), Show(3), Show(5), Show(8);
    assert one == "1" && three == "3" && five == "5" && eight == "8";
    assert list == one + "," + (three + "-" + five + "," + eight);
    ParsePosShow(1);
    ParsePosShow(8);
    ExampleRange();
    ExampleParts(one, three + "-" + five, eight, [0], [2, 3, 4], [7]);
  }

  /** A single positive number `k` names the one position `k - 1`. */
  lemma ParsePosShow(k: nat)
    requires 0 < k <= USIZE_MAX
    ensures ParsePos(Show(k)) == Ok([k - 1])
  {
    ParseShow(k);
    ParsePosSingle(Show(k));
  }

  lemma ExampleRange()
    ensures ParsePos(Show(3) + "-" + Show(5)) == Ok([2, 3, 4])
  {
    ParsePosRange(3, 5);
    var r := ParsePos(Show(3) + "-" + Show(5)).value;
    assert |r| == 3 && r[0] == 2 && r[1] == 3 && r[2] == 4;
    assert r == [2, 3, 4];
  }

  /** Lists are concatenated token by token, so only the three parts need
      reading. */
  lemma ExampleParts(one: string, range: string, eight: string, a: seq<nat>, b: seq<nat>, c: seq<nat>)
    requires ParsePos(one) == Ok(a) && ParsePos(range) == Ok(b) && ParsePos(eight) == Ok(c)
    ensures ParsePos(one + "," + (range + "," + eight)) == Ok(a + (b + c))
  {
    ParsePosAppend(range, eight);
    ParsePosAppend(one, range + "," + eight);
  }

  // ---------------------------------------------------------------------
  // A list parser that never panics

  /** One token as the loop of `parse_pos` evidently means to treat it: a
      range with a missing bound, and a range that starts at 0, are illegal
      list values like `0` is, instead of a panic. */
  function FixedExpandToken(tok: string): (r: Outcome<seq<nat>, CutError>)
    ensures !r.Panic?
    ensures r.Ok? ==> 0 !in r.value
    ensures ExpandToken(tok).Ok? && 0 !in ExpandToken(tok).value ==> r == ExpandToken(tok)
    ensures ExpandToken(tok).Err? ==> r == ExpandToken(tok)
  {
    match ExpandToken(tok)
    case Ok(ns) => if 0 in ns then Err(IllegalValue(tok)) else Ok(ns)
    case Err(e) => Err(e)
    case Panic(_) => Err(IllegalValue(tok))
  }

  function FixedCollect(tokens: seq<string>): (r: Outcome<seq<nat>, CutError>)
    ensures !r.Panic?
    ensures r.Ok? ==> 0 !in r.value
    decreases |tokens|
  {
    if tokens == [] then Ok([])
    else
      var first := FixedExpandToken(tokens[0]);
      var rest := FixedCollect(tokens[1..]);
      assert first.Ok? && rest.Ok? ==> 0 !in first.value + rest.value;
      Then(first, rest)
  }

  /** `parse_pos` with every token checked before the positions are made
      zero-based: it reports an error wherever the program panics. */
  function FixedParsePos(list: string): (r: Outcome<seq<nat>, CutError>)
    ensures !r.Panic?
  {
    match FixedCollect(SplitOn(list, ','))
    case Ok(fields) => Ok(ZeroBased(fields))
    case Err(e) => Err(e)
  }

  /** Where the tokens are read without a panic and without a position 0,
      the checked loop reads them the same way. */
  lemma {:induction false} FixedCollectAgrees(tokens: seq<string>)
    requires Collect(tokens).Ok? && 0 !in Collect(tokens).value
    ensures FixedCollect(tokens) == Collect(tokens)
    decreases |tokens|
  {
    if tokens != [] {
      var e := ExpandToken(tokens[0]);
      assert e.Ok? && Collect(tokens[1..]).Ok?;
      assert Collect(tokens).value == e.value + Collect(tokens[1..]).value;
      assert 0 !in e.value && 0 !in Collect(tokens[1..]).value by {
        assert forall x | x in e.value :: x in Collect(tokens).value;
        assert forall x | x in Collect(tokens[1..]).value :: x in Collect(tokens).value;
      }
      FixedCollectAgrees(tokens[1..]);
    }
  }

  /** The checked parser never panics, and on every list the program parses
      it gives the same positions. */
  lemma FixedParsePosAgrees(list: string)
    ensures !FixedParsePos(list).Panic?
    ensures ParsePos(list).Ok? ==> FixedParsePos(list) == ParsePos(list)
  {
    if ParsePos(list).Ok? {
      FixedCollectAgrees(SplitOn(list, ','));
    }
  }

  /** Where the program panics on a range from 0, the checked parser
      reports the token as an illegal list value. */
  lemma FixedParsePosZeroStart(hi: nat)
    requires 0 < hi <= USIZE_MAX
    ensures FixedParsePos("0-" + Show(hi)) == Err(IllegalValue("0-" + Show(hi)))
  {
    ZeroRangeToken(hi);
    FixedExpandZeroStart(hi);
    FixedOneTokenFails("0-" + Show(hi));
  }

  lemma FixedExpandZeroStart(hi: nat)
    requires 0 < hi <= USIZE_MAX
    ensures var tok := Show(0) + "-" + Show(hi);
      FixedExpandToken(tok) == Err(IllegalValue(tok))
  {
    ExpandRangeToken(0, hi);
    assert Span(0, hi)[0] == 0;
  }

  lemma FixedOneTokenFails(tok: string)
    requires ',' !in tok && FixedExpandToken(tok).Err?
    ensures FixedParsePos(tok) == FixedExpandToken(tok)
  {
    OneToken(tok);
    assert [tok][1..] == [];
  }

  /** Where the program panics on a range with no first bound, the checked
      parser reports the token as an illegal list value. */
  lemma FixedParsePosMissingBound(tok: string)
    requires '-' in tok && ',' !in tok
    requires var m := FirstIndexOf(tok, '-'); m == 0 || !IsDigit(tok[m - 1])
    ensures ParsePos(tok) == Panic(NoGroup(1))
    ensures FixedParsePos(tok) == Err(IllegalValue(tok))
  {
    MissingLowerBoundPanics(tok);
    OneToken(tok);
    CollectOne(tok);
    assert SplitOn(tok, ',')[1..] == [];
  }

  // ---------------------------------------------------------------------
  // Extraction

  /** `extract_chars`: the character at each in-range position, in the
      order of the positions, repeats kept; an empty line gives an empty
      result. */
  function ExtractChars(line: string, pos: seq<nat>): (r: string)
    ensures r == Select(line, pos)
    ensures line == [] ==> r == []
    ensures |r| <= |pos|
    ensures (forall i | 0 <= i < |pos| :: pos[i] < |line|) ==>
      |r| == |pos| && forall i | 0 <= i < |pos| :: r[i] == line[pos[i]]
  {
    SelectFacts(line, pos);
    if line == [] then "" else Select(line, pos)
  }

  /** A position past the end is skipped and the others keep their order:
      positions 0, 5 and 1 of `ab` give `ab`. */
  lemma ExtractCharsSkips(line: string)
    requires line == "ab"
    ensures ExtractChars(line, [0, 5, 1]) == line
  {
    SkipPastEnd([0, 5, 1]);
    var r := ExtractChars(line, [0, 5, 1]);
    assert |r| == 2 && r[0] == line[0] && r[1] == line[1];
  }

  lemma SkipPastEnd(pos: seq<nat>)
    requires pos == [0, 5, 1]
    ensures InRange(pos, 2) == [0, 1]
  {
    assert pos[1..][1..][1..] == [];
    assert InRange(pos[1..][1..], 2) == [1];
    assert InRange(pos[1..], 2) == [1];
  }

  /** The buffer `extract_bytes` assembles: the byte of the line's UTF-8
      form at each in-range position, in the order of the positions. */
  function SelectedBytes(line: string, pos: seq<nat>): (bs: seq<byte>)
    ensures bs == Select(Encode(line), pos)
    ensures |bs| <= |pos|
    ensures forall b | b in bs :: b in Encode(line)
    ensures (forall i | 0 <= i < |pos| :: pos[i] < |Encode(line)|) ==>
      |bs| == |pos| && forall i | 0 <= i < |pos| :: bs[i] == Encode(line)[pos[i]]
  {
    SelectFacts(Encode(line), pos);
    Select(Encode(line), pos)
  }

  /** `extract_bytes`: the selected bytes are assembled first and decoded
      once, with `decode` standing for `String::from_utf8_lossy`. */
  function ExtractBytes(line: string, pos: seq<nat>, decode: seq<byte> -> string): (r: string)
    ensures line == [] ==> r == []
    ensures line != [] ==> r == decode(SelectedBytes(line, pos))
  {
    if line == [] then "" else decode(SelectedBytes(line, pos))
  }

  /** On an ASCII line bytes and characters coincide, so byte mode and
      character mode give the same text, provided only that the decoder
      reads ASCII bytes as the characters they encode. */
  lemma ExtractBytesAscii(line: string, pos: seq<nat>, decode: seq<byte> -> string)
    requires IsAscii(line)
    requires forall bs: seq<byte> :: IsAsciiBytes(bs) ==> decode(bs) == AsciiChars(bs)
    ensures ExtractBytes(line, pos, decode) == ExtractChars(line, pos)
  {
    if line != [] {
      EncodeAscii(line);
      var bs := Select(Encode(line), pos);
      var cs := Select(line, pos);
      assert InRange(pos, |Encode(line)|) == InRange(pos, |line|);
      assert IsAsciiBytes(bs) by {
        forall i | 0 <= i < |bs| ensures bs[i] < 0x80 {
          var p := InRange(pos, |line|)[i];
          assert bs[i] == Encode(line)[p] == line[p] as int;
        }
      }
      var t := AsciiChars(bs);
      assert |t| == |cs|;
      forall i | 0 <= i < |t| ensures t[i] == cs[i] {
        var p := InRange(pos, |line|)[i];
        assert t[i] as int == bs[i] == line[p] as int;
      }
      assert t == cs;
    }
  }

  /** Byte mode can split a character where character mode cannot: picking
      only the first byte of a multi-byte character leaves a buffer that is
      the UTF-8 form of no string, so the decoder has to substitute. */
  lemma ExtractBytesSplitsCharacter(line: string, p: nat)
    requires p < |Encode(line)| && Encode(line)[p] >= 0xC0
    ensures SelectedBytes(line, [p]) == [Encode(line)[p]]
    ensures forall s: string :: Encode(s) != SelectedBytes(line, [p])
  {
    var bs := SelectedBytes(line, [p]);
    assert InRange([p], |Encode(line)|) == [p];
    forall s: string ensures Encode(s) != bs {
      LeadByteAloneIsNotText(s, Encode(line)[p]);
    }
  }

  /** `extract_fields` on a record already split into fields: the field at
      each in-range position, in the order of the positions, repeats kept,
      positions past the last field skipped. */
  function ExtractFields(record: seq<string>, pos: seq<nat>): (r: seq<string>)
    ensures r == Select(record, pos)
    ensures |r| <= |pos|
    ensures pos == [] ==> r == []
    ensures forall f | f in r :: f in record
    ensures (forall i | 0 <= i < |pos| :: pos[i] < |record|) ==>
      |r| == |pos| && forall i | 0 <= i < |pos| :: r[i] == record[pos[i]]
  {
    SelectFacts(record, pos);
    Select(record, pos)
  }

  /** Fields come out in the order of the positions, not of the record:
      positions 2 and 0 of `a,b,c` give `c,a`. */
  lemma ExtractFieldsReorders(record: seq<string>)
    requires record == ["a", "b", "c"]
    ensures ExtractFields(record, [2, 0]) == ["c", "a"]
  {
  }

  /** A repeated position repeats its field. */
  lemma ExtractFieldsRepeats(record: seq<string>)
    requires record == ["a", "b", "c"]
    ensures ExtractFields(record, [0, 0]) == ["a", "a"]
  {
  }

  /** A position past the last field is skipped while the others stay:
      positions 1 and 5 of `a,b` give `b`. */
  lemma ExtractFieldsSkips(record: seq<string>)
    requires record == ["a", "b"]
    ensures ExtractFields(record, [1, 5]) == ["b"]
  {
  }

  // ---------------------------------------------------------------------
  // Configuration

  /** The selection a run uses, with its zero-based positions. */
  datatype Extract = Fields(list: seq<nat>) | Bytes(list: seq<nat>) | Chars(list: seq<nat>)

  datatype Config = Config(delimiter: byte, extract: Extract)

  /** The delimiter rule: the value must be exactly one byte long once
      encoded, which is to say a single ASCII character. */
  function CheckDelimiter(d: string): (r: Outcome<byte, CutError>)
    ensures r.Ok? <==> |d| == 1 && (d[0] as int) < 0x80
    ensures r.Ok? ==> r.value == d[0] as int
    ensures !r.Ok? ==> r == Err(BadDelimiter(d))
  {
    var bs := Encode(d);
    EncodeSingleByte(d);
    if d == [] || |bs| > 1 then Err(BadDelimiter(d)) else Ok(bs[0])
  }

  /** `value_of(..).map(parse_pos).transpose()`. */
  function ParseOption(list: Option<string>): (r: Outcome<Option<seq<nat>>, CutError>)
    ensures list.None? ==> r == Ok(None)
    ensures list.Some? ==> (r.Ok? <==> ParsePos(list.value).Ok?)
    ensures list.Some? && r.Ok? ==> r.value == Some(ParsePos(list.value).value)
    ensures list.Some? && !ParsePos(list.value).Ok? ==> SameFailure(r, ParsePos(list.value))
  {
    match list
    case None => Ok(None)
    case Some(l) =>
      match ParsePos(l)
      case Ok(p) => Ok(Some(p))
      case Err(e) => Err(e)
      case Panic(m) => Panic(m)
  }

  predicate ListParses(list: Option<string>) {
    list.None? || ParsePos(list.value).Ok?
  }

  /** The checks of `get_args` once the command line is read: the delimiter
      first, then the three lists in the order fields, bytes, chars, and
      then the choice of mode, where fields win over bytes and bytes over
      chars. */
  function Configure(delimiter: string, fields: Option<string>, bytes: Option<string>, chars: Option<string>)
    : (r: Outcome<Config, CutError>)
    ensures r.Ok? <==>
      && |delimiter| == 1 && (delimiter[0] as int) < 0x80
      && ListParses(fields) && ListParses(bytes) && ListParses(chars)
      && (fields.Some? || bytes.Some? || chars.Some?)
    ensures !(|delimiter| == 1 && (delimiter[0] as int) < 0x80) ==> r == Err(BadDelimiter(delimiter))
    ensures r.Ok? ==> r.value.delimiter == delimiter[0] as int
    ensures r.Ok? ==> (r.value.extract.Fields? <==> fields.Some?)
    ensures r.Ok? ==> (r.value.extract.Bytes? <==> fields.None? && bytes.Some?)
    ensures r.Ok? ==> (r.value.extract.Chars? <==> fields.None? && bytes.None?)
    ensures r.Ok? && r.value.extract.Fields? ==> Ok(r.value.extract.list) == ParsePos(fields.value)
    ensures r.Ok? && r.value.extract.Bytes? ==> Ok(r.value.extract.list) == ParsePos(bytes.value)
    ensures r.Ok? && r.value.extract.Chars? ==> Ok(r.value.extract.list) == ParsePos(chars.value)
    ensures |delimiter| == 1 && (delimiter[0] as int) < 0x80 && fields.None? && bytes.None? && chars.None? ==>
      r == Err(NoMode)
    ensures |delimiter| == 1 && (delimiter[0] as int) < 0x80 && !ListParses(fields) ==>
      SameFailure(r, ParsePos(fields.value))
    ensures |delimiter| == 1 && (delimiter[0] as int) < 0x80 && ListParses(fields) && !ListParses(bytes) ==>
      SameFailure(r, ParsePos(bytes.value))
    ensures (|delimiter| == 1 && (delimiter[0] as int) < 0x80 && ListParses(fields) && ListParses(bytes) &&
             !ListParses(chars)) ==> SameFailure(r, ParsePos(chars.value))
  {
    match CheckDelimiter(delimiter)
    case Err(e) => Err(e)
    case Panic(m) => Panic(m)
    case Ok(b) =>
      match ParseOption(fields)
      case Err(e) => Err(e)
      case Panic(m) => Panic(m)
      case Ok(f) =>
        match ParseOption(bytes)
        case Err(e) => Err(e)
        case Panic(m) => Panic(m)
        case Ok(bs) =>
          match ParseOption(chars)
          case Err(e) => Err(e)
          case Panic(m) => Panic(m)
          case Ok(cs) =>
            if f.Some? then Ok(Config(b, Fields(f.value)))
            else if bs.Some? then Ok(Config(b, Bytes(bs.value)))
            else if cs.Some? then Ok(Config(b, Chars(cs.value)))
            else Err(NoMode)
  }
}

=== FILE: decimal.dfy ===
/** Decimal numerals: the standard library's `str::parse::<usize>` on a 64-bit
    target, the decimal `Display` of an unsigned integer, and the right
    alignment used by the `{:>4}` and `{:>6}` format specifiers.
 */
module Decimal {
  import opened Outcomes

  /** `usize::MAX` on a 64-bit target. */
  const USIZE_MAX: nat := 0xFFFF_FFFF_FFFF_FFFF

  predicate IsDigit(c: char) {
    '0' <= c <= '9'
  }

  predicate AllDigits(s: string) {
    forall i | 0 <= i < |s| :: IsDigit(s[i])
  }

  lemma AllDigitsSlices(s: string, k: nat)
    requires k <= |s|
    ensures AllDigits(s[k..]) ==> forall j | k <= j < |s| :: IsDigit(s[j])
    ensures AllDigits(s[..k]) ==> forall j | 0 <= j < k :: IsDigit(s[j])
  {
    if AllDigits(s[k..]) {
      forall j | k <= j < |s| ensures IsDigit(s[j]) {
        assert s[j] == s[k..][j - k];
      }
    }
    if AllDigits(s[..k]) {
      forall j | 0 <= j < k ensures IsDigit(s[j]) {
        assert s[j] == s[..k][j];
      }
    }
  }

  function DigitValue(c: char): (d: nat)
    requires IsDigit(c)
    ensures d < 10
  {
    (c as int) - ('0' as int)
  }

  function DigitChar(d: nat): (c: char)
    requires d < 10
    ensures IsDigit(c) && DigitValue(c) == d
  {
    (('0' as int) + d) as char
  }

  /** The value of the digit string `ds` read after the digits already read
      amount to `acc`.  `Value` is the plain value of a digit string. */
  function ValueFrom(acc: nat, ds: string): nat
    requires AllDigits(ds)
    decreases |ds|
  {
    if ds == [] then acc else ValueFrom(acc * 10 + DigitValue(ds[0]), ds[1..])
  }

  function Value(ds: string): nat
    requires AllDigits(ds)
  {
    ValueFrom(0, ds)
  }

  /** The kinds of `ParseIntError` an unsigned parse can report. */
  datatype IntError = Empty | InvalidDigit | PosOverflow

  /** The text `ParseIntError` displays for each kind. */
  function IntErrorText(k: IntError): string {
    match k
    case Empty => "cannot parse integer from empty string"
    case InvalidDigit => "invalid digit found in string"
    case PosOverflow => "number too large to fit in target type"
  }

  /** The digits a literal is made of once an optional leading `+` is dropped. */
  function Unsigned(s: string): string {
    if |s| > 0 && s[0] == '+' then s[1..] else s
  }

  /** The strings `str::parse::<usize>` accepts: an optional `+`, then one
      or more ASCII digits whose value fits in 64 bits. */
  predicate IsUsizeLiteral(s: string) {
    var ds := Unsigned(s);
    |ds| > 0 && AllDigits(ds) && Value(ds) <= USIZE_MAX
  }

  function LiteralValue(s: string): nat
    requires IsUsizeLiteral(s)
  {
    Value(Unsigned(s))
  }

  /** The digit loop of `from_str_radix`: digits are read left to right, a
      non-digit stops with `InvalidDigit`, and a multiplication or addition
      that leaves 64 bits stops with `PosOverflow`. */
  function Accumulate(ds: string, acc: nat): Outcome<nat, IntError>
    requires acc <= USIZE_MAX
  {
    if ds == [] then Ok(acc)
    else if !IsDigit(ds[0]) then Err(InvalidDigit)
    else if acc * 10 > USIZE_MAX then Err(PosOverflow)
    else if acc * 10 + DigitValue(ds[0]) > USIZE_MAX then Err(PosOverflow)
    else Accumulate(ds[1..], acc * 10 + DigitValue(ds[0]))
  }

  /** `str::parse::<usize>`.  A lone sign is an invalid digit; a `-` is not a
      sign for an unsigned type and so fails as an invalid digit too. */
  function ParseUsize(s: string): (r: Outcome<nat, IntError>)
    ensures r.Ok? <==> IsUsizeLiteral(s)
    ensures r.Ok? ==> r.value == LiteralValue(s) && r.value <= USIZE_MAX
    ensures !r.Panic?
    ensures s == [] ==> r == Err(Empty)
  {
    if s == [] then Err(Empty)
    else if (s[0] == '+' || s[0] == '-') && |s| == 1 then
      assert Unsigned(s) == [] || !IsDigit(Unsigned(s)[0]);
      Err(InvalidDigit)
    else if s[0] == '+' then
      AccumulateMeaning(s[1..], 0);
      Accumulate(s[1..], 0)
    else
      AccumulateMeaning(s, 0);
      Accumulate(s, 0)
  }

  /** The digits read never make the running value smaller. */
  lemma {:induction false} ValueFromAtLeast(acc: nat, ds: string)
    requires AllDigits(ds)
    ensures ValueFrom(acc, ds) >= acc
    ensures ds != [] ==> ValueFrom(acc, ds) >= acc * 10 + DigitValue(ds[0])
    decreases |ds|
  {
    if ds != [] {
      ValueFromAtLeast(acc * 10 + DigitValue(ds[0]), ds[1..]);
    }
  }

  /** The digit loop computes the value of the digits, and reports an
      overflow exactly when that value does not fit in 64 bits. */
  lemma {:induction false} AccumulateMeaning(ds: string, acc: nat)
    requires acc <= USIZE_MAX
    ensures Accumulate(ds, acc).Ok? <==> AllDigits(ds) && ValueFrom(acc, ds) <= USIZE_MAX
    ensures Accumulate(ds, acc).Ok? ==> Accumulate(ds, acc).value == ValueFrom(acc, ds)
    ensures !Accumulate(ds, acc).Panic?
    decreases |ds|
  {
    if ds == [] {
    } else if !IsDigit(ds[0]) {
    } else {
      var d := DigitValue(ds[0]);
      if AllDigits(ds) {
        ValueFromAtLeast(acc, ds);
      }
      if acc * 10 > USIZE_MAX || acc * 10 + d > USIZE_MAX {
      } else {
        AccumulateMeaning(ds[1..], acc * 10 + d);
        assert AllDigits(ds) <==> AllDigits(ds[1..]) by {
          if AllDigits(ds[1..]) {
            forall i | 0 <= i < |ds| ensures IsDigit(ds[i]) {
              if i > 0 { assert ds[i] == ds[1..][i - 1]; }
            }
          }
        }
      }
    }
  }

  /** `Display` of an unsigned integer: its decimal digits, no sign, no
      leading zeros. */
  function Show(n: nat): (s: string)
    ensures |s| > 0 && AllDigits(s)
    ensures s[0] == '0' ==> n == 0
    decreases n
  {
    if n < 10 then [DigitChar(n)] else Show(n / 10) + [DigitChar(n % 10)]
  }

  /** Appending a digit multiplies the value read so far by ten. */
  lemma {:induction false} ValueFromSnoc(acc: nat, ds: string, c: char)
    requires AllDigits(ds) && IsDigit(c)
    ensures AllDigits(ds + [c])
    ensures ValueFrom(acc, ds + [c]) == ValueFrom(acc, ds) * 10 + DigitValue(c)
    decreases |ds|
  {
    assert AllDigits(ds + [c]) by {
      forall i | 0 <= i < |ds + [c]| ensures IsDigit((ds + [c])[i]) {
        if i < |ds| { assert (ds + [c])[i] == ds[i]; }
      }
    }
    if ds != [] {
      assert (ds + [c])[1..] == ds[1..] + [c];
      ValueFromSnoc(acc * 10 + DigitValue(ds[0]), ds[1..], c);
    }
  }

  /** Reading back the decimal form of `n` gives `n`. */
  lemma {:induction false} ValueOfShow(n: nat)
    ensures Value(Show(n)) == n
    decreases n
  {
    if n < 10 {
      assert Show(n) == [DigitChar(n)];
      var c := DigitChar(n);
      assert Show(n) == [c] && [c][1..] == [];
      assert ValueFrom(0, [c]) == ValueFrom(DigitValue(c), []);
    } else {
      ValueOfShow(n / 10);
      ValueFromSnoc(0, Show(n / 10), DigitChar(n % 10));
      assert Show(n) == Show(n / 10) + [DigitChar(n % 10)];
      assert Value(Show(n)) == (n / 10) * 10 + n % 10;
    }
  }

  /** Round trip: `n.to_string().parse::<usize>()` gives back `n`, with or
      without a leading `+`. */
  lemma ParseShow(n: nat)
    requires n <= USIZE_MAX
    ensures ParseUsize(Show(n)) == Ok(n)
    ensures ParseUsize("+" + Show(n)) == Ok(n)
  {
    ValueOfShow(n);
    assert Unsigned(Show(n)) == Show(n);
    assert Unsigned("+" + Show(n)) == Show(n);
  }

  /** `{:>w}` on an already formatted value: spaces on the left up to width
      `w`; a longer value is not cut. */
  function PadLeft(s: string, w: nat): (r: string)
    ensures |r| == if |s| < w then w else |s|
    ensures r[|r| - |s|..] == s
    ensures forall i | 0 <= i < |r| - |s| :: r[i] == ' '
  {
    if |s| < w then seq(w - |s|, _ => ' ') + s else s
  }

  /** `format!("{:>w}", n)`. */
  function ShowPadded(n: nat, w: nat): string {
    PadLeft(Show(n), w)
  }

  /** The text with its leading spaces removed. */
  function DropSpaces(s: string): (r: string)
    ensures |r| <= |s| && r == s[|s| - |r|..]
    ensures r == [] || r[0] != ' '
    decreases |s|
  {
    if s != [] && s[0] == ' ' then DropSpaces(s[1..]) else s
  }

  lemma {:induction false} DropSpacesPadded(pad: string, digits: string)
    requires forall i | 0 <= i < |pad| :: pad[i] == ' '
    requires digits != [] && IsDigit(digits[0])
    ensures DropSpaces(pad + digits) == digits
    decreases |pad|
  {
    var s := pad + digits;
    if pad == [] {
      assert s == digits && s[0] != ' ';
    } else {
      assert s[0] == ' ' && s[1..] == pad[1..] + digits;
      DropSpacesPadded(pad[1..], digits);
    }
  }

  /** The spaces `{:>w}` puts before a number drop off again and leave
      its digits. */
  lemma DropSpacesShow(n: nat, w: nat)
    ensures DropSpaces(ShowPadded(n, w)) == Show(n)
  {
    var digits := Show(n);
    var p := PadLeft(digits, w);
    var pad := p[..|p| - |digits|];
    assert p == pad + digits;
    DropSpacesPadded(pad, digits);
  }

  /** Round trip: a right-aligned number, read back after its leading
      spaces are dropped, is the number itself. */
  lemma ShowPaddedRoundTrip(n: nat, w: nat)
    requires n <= USIZE_MAX
    ensures ParseUsize(DropSpaces(ShowPadded(n, w))) == Ok(n)
  {
    DropSpacesShow(n, w);
    ParseShow(n);
  }
}

=== FILE: head.dfy ===
/** `headr` (headr/src/lib.rs): the count validator, the first lines of a
    stream, the first bytes of a stream, and the headers printed between
    files.
 */
module Head {
  import opened Outcomes
  import opened Decimal
  import opened Text
  import opened Utf8

  // ---------------------------------------------------------------------
  // Counts

  /** `parse_positive_int`: a count must parse as a usize and be above
      zero; the error is the rejected text itself. */
  function ParsePositiveInt(val: string): (r: Outcome<nat, string>)
    ensures r.Ok? <==> IsUsizeLiteral(val) && LiteralValue(val) > 0
    ensures r.Ok? ==> r.value == LiteralValue(val) && 0 < r.value <= USIZE_MAX
    ensures !r.Ok? ==> r == Err(val)
  {
    match ParseUsize(val)
    case Ok(n) => if n > 0 then Ok(n) else Err(val)
    case _ => Err(val)
  }

  /** Every positive count, written in decimal, is accepted as itself. */
  lemma ParsePositiveIntShow(n: nat)
    requires 0 < n <= USIZE_MAX
    ensures ParsePositiveInt(Show(n)) == Ok(n)
  {
    ParseShow(n);
  }

  /** Zero, negative numbers and text that is not a number are refused,
      and the error repeats the input verbatim. */
  lemma ParsePositiveIntRejects(val: string)
    requires || (IsUsizeLiteral(val) && LiteralValue(val) == 0)
             || (|val| > 0 && val[0] == '-')
             || (exists i | 0 <= i < |Unsigned(val)| :: !IsDigit(Unsigned(val)[i]))
    ensures ParsePositiveInt(val) == Err(val)
  {
    if |val| > 0 && val[0] == '-' {
      assert Unsigned(val)[0] == '-';
    }
  }

  datatype HeadConfig = HeadConfig(lines: nat, bytes: Option<nat>)

  /** The count checks of `get_args`: the line count (which has a default)
      is checked first, then the byte count if one was given, each error
      carrying a prefix that names the option. */
  function HeadArgs(lines: string, bytes: Option<string>): (r: Outcome<HeadConfig, string>)
    ensures r.Ok? <==> ParsePositiveInt(lines).Ok? && (bytes.None? || ParsePositiveInt(bytes.value).Ok?)
    ensures ParsePositiveInt(lines).Err? ==> r == Err("illegal line count -- " + lines)
    ensures ParsePositiveInt(lines).Ok? && bytes.Some? && ParsePositiveInt(bytes.value).Err? ==>
      r == Err("illegal byte count -- " + bytes.value)
    ensures r.Ok? ==> r.value.lines == LiteralValue(lines) > 0
    ensures r.Ok? ==> (r.value.bytes.Some? <==> bytes.Some?)
    ensures r.Ok? && bytes.Some? ==> r.value.bytes.value == LiteralValue(bytes.value) > 0
  {
    match ParsePositiveInt(lines)
    case Err(e) => Err("illegal line count -- " + e)
    case Panic(m) => Panic(m)
    case Ok(n) =>
      match bytes
      case None => Ok(HeadConfig(n, None))
      case Some(b) =>
        match ParsePositiveInt(b)
        case Err(e) => Err("illegal byte count -- " + e)
        case Panic(m) => Panic(m)
        case Ok(k) => Ok(HeadConfig(n, Some(k)))
  }

  // ---------------------------------------------------------------------
  // The first lines of a stream

  function NewlineCount(s: string): nat
    decreases |s|
  {
    if s == [] then 0 else NewlineCount(s[..|s| - 1]) + (if s[|s| - 1] == '\n' then 1 else 0)
  }

  lemma {:induction false} NewlineCountAppend(a: string, b: string)
    ensures NewlineCount(a + b) == NewlineCount(a) + NewlineCount(b)
    decreases |b|
  {
    if b == [] {
      assert a + b == a;
    } else {
      var front := b[..|b| - 1];
      assert (a + b)[..|a + b| - 1] == a + front;
      assert (a + b)[|a + b| - 1] == b[|b| - 1];
      NewlineCountAppend(a, front);
    }
  }

  lemma {:induction false} NoNewline(s: string)
    requires '\n' !in s
    ensures NewlineCount(s) == 0
    decreases |s|
  {
    if s != [] {
      assert '\n' !in s[..|s| - 1];
      NoNewline(s[..|s| - 1]);
    }
  }

  /** A `read_line` result holds one newline if it ends in one, and none
      otherwise. */
  lemma ReadLineNewlines(line: string)
    requires IsReadLine(line)
    ensures NewlineCount(line) == if EndsWithNewline(line) then 1 else 0
  {
    NoNewline(line[..|line| - 1]);
  }

  /** The loop of `read_lines`: at most `n` calls to `read_line`, stopping
      early at the end of the input, each result printed as read. */
  function TakeLines(text: string, n: nat): (r: string)
    ensures |r| <= |text| && r == text[..|r|]
    ensures NewlineCount(r) <= n
    ensures r == text || (NewlineCount(r) == n && (r == [] || r[|r| - 1] == '\n'))
    decreases n
  {
    if n == 0 || text == [] then ""
    else
      var line := FirstLine(text);
      var rest := TakeLines(text[|line|..], n - 1);
      assert line + text[|line|..] == text;
      TakeLinesStep(text, line, text[|line|..], rest, n);
      line + rest
  }

  /** One more `read_line` keeps the facts `TakeLines` promises. */
  lemma TakeLinesStep(text: string, line: string, tail: string, rest: string, n: nat)
    requires n > 0 && IsReadLine(line) && text == line + tail
    requires |rest| <= |tail| && rest == tail[..|rest|] && NewlineCount(rest) <= n - 1
    requires rest == tail || (NewlineCount(rest) == n - 1 && (rest == [] || rest[|rest| - 1] == '\n'))
    requires !EndsWithNewline(line) ==> tail == []
    ensures var r := line + rest;
      |r| <= |text| && r == text[..|r|] && NewlineCount(r) <= n &&
      (r == text || (NewlineCount(r) == n && (r == [] || r[|r| - 1] == '\n')))
  {
    ReadLineNewlines(line);
    NewlineCountAppend(line, rest);
    assert text[..|line| + |rest|] == line + tail[..|rest|];
  }

  /** The text `read_lines` prints is the first `min(n, k)` of the `k`
      lines `read_line` would return, verbatim. */
  lemma {:induction false} TakeLinesIsFirstLines(text: string, n: nat)
    ensures TakeLines(text, n) == FirstLines(text, n)
    decreases n
  {
    if n == 0 || text == [] {
      assert ReadLines(text)[..0] == [];
    } else {
      TakeLinesIsFirstLines(text[|FirstLine(text)|..], n - 1);
      FirstLinesStep(text, n);
    }
  }

  /** The concatenation of the first `min(n, k)` of the `k` `read_line`
      results. */
  function FirstLines(text: string, n: nat): string {
    var lines := ReadLines(text);
    Concat(lines[..if n < |lines| then n else |lines|])
  }

  lemma FirstLinesStep(text: string, n: nat)
    requires n > 0 && text != []
    ensures FirstLines(text, n) == FirstLine(text) + FirstLines(text[|FirstLine(text)|..], n - 1)
  {
    ReadLinesUnfold(text);
    ConcatFirst(FirstLine(text), ReadLines(text[|FirstLine(text)|..]), n);
  }

  lemma ConcatFirst(line: string, tail: seq<string>, n: nat)
    requires n > 0
    ensures var lines := [line] + tail;
      var m := if n - 1 < |tail| then n - 1 else |tail|;
      Concat(lines[..if n < |lines| then n else |lines|]) == line + Concat(tail[..m])
  {
    var m := if n - 1 < |tail| then n - 1 else |tail|;
    assert ([line] + tail)[..m + 1] == [line] + tail[..m];
    ConcatCons(line, tail[..m]);
  }

  lemma ReadLinesUnfold(text: string)
    requires text != []
    ensures ReadLines(text) == [FirstLine(text)] + ReadLines(text[|FirstLine(text)|..])
  {
  }

  /** When the input has no more than `n` lines, all of it is printed. */
  lemma TakeLinesAll(text: string, n: nat)
    requires |ReadLines(text)| <= n
    ensures TakeLines(text, n) == text
  {
    TakeLinesIsFirstLines(text, n);
    assert ReadLines(text)[..|ReadLines(text)|] == ReadLines(text);
  }

  // ---------------------------------------------------------------------
  // Files

  /** The text printed for one input: the first bytes when a byte count is
      set, the first lines otherwise.  `decode` stands for
      `String::from_utf8_lossy`. */
  function Body(cfg: HeadConfig, text: string, decode: seq<byte> -> string): (r: string)
    ensures cfg.bytes.None? ==> r == FirstLines(text, cfg.lines)
  {
    TakeLinesIsFirstLines(text, cfg.lines);
    match cfg.bytes
    case Some(k) =>
      var bs := Encode(text);
      decode(bs[..if k < |bs| then k else |bs|])
    case None => TakeLines(text, cfg.lines)
  }

  /** In byte mode on ASCII text, the body is the first `k` characters. */
  lemma BodyBytesAscii(cfg: HeadConfig, text: string, decode: seq<byte> -> string)
    requires cfg.bytes.Some? && IsAscii(text)
    requires forall bs: seq<byte> :: IsAsciiBytes(bs) ==> decode(bs) == AsciiChars(bs)
    ensures var k := cfg.bytes.value;
      Body(cfg, text, decode) == text[..if k < |text| then k else |text|]
  {
    EncodeAscii(text);
    var k := cfg.bytes.value;
    var m := if k < |text| then k else |text|;
    var bs := Encode(text)[..m];
    assert IsAsciiBytes(bs);
    assert AsciiChars(bs) == text[..m];
  }

  /** The header printed before a file's text: a blank line first unless
      the file is the first argument, then the name between the arrows on a
      line of its own. */
  function Header(name: string, filenum: nat): (r: string)
    ensures var k := if filenum > 0 then 1 else 0;
      && |r| == k + |name| + 9
      && (r[0] == '\n' <==> filenum > 0)
      && r[k..k + 4] == "==> " && r[k + 4..|r| - 5] == name && r[|r| - 5..] == " <==\n"
  {
    var r := (if filenum > 0 then "\n" else "") + "==> " + name + " <==\n";
    var k := if filenum > 0 then 1 else 0;
    assert r[k..k + 4] == "==> ";
    assert r[k + 4..|r| - 5] == name;
    r
  }

  // ---------------------------------------------------------------------
  // The standard input across several `-` arguments

  /** The number of `-` arguments in `names`. */
  function Dashes(names: seq<string>): (d: nat)
    ensures d <= |names|
    ensures d == 0 <==> "-" !in names
    decreases |names|
  {
    if names == [] then 0
    else
      var front := names[..|names| - 1];
      var d := Dashes(front) + (if names[|names| - 1] == "-" then 1 else 0);
      assert names == front + [names[|names| - 1]];
      d
  }

  /** The bytes one `read()` of at most `k` bytes hands back once `start`
      bytes of `bs` have been read before it: the next `k` bytes, fewer at
      the end, none past it. */
  function ByteChunk(bs: seq<byte>, start: nat, k: nat): (r: seq<byte>)
    ensures start >= |bs| ==> r == []
    ensures start < |bs| ==>
      |r| == (if k < |bs| - start then k else |bs| - start) && r == bs[start..start + |r|]
  {
    var lo := if start < |bs| then start else |bs|;
    var hi := if start + k < |bs| then start + k else |bs|;
    bs[lo..hi]
  }

  /** Two reads in a row take consecutive bytes: nothing is skipped or read
      twice between them. */
  lemma ByteChunkAppend(bs: seq<byte>, start: nat, k: nat, k2: nat)
    ensures ByteChunk(bs, start, k) + ByteChunk(bs, start + k, k2) == ByteChunk(bs, start, k + k2)
  {
    if start < |bs| {
      var a := ByteChunk(bs, start, k);
      if start + k < |bs| {
        assert bs[start..start + k] + bs[start + k..start + k + |ByteChunk(bs, start + k, k2)|]
          == bs[start..start + k + |ByteChunk(bs, start + k, k2)|];
      } else {
        assert a + [] == a;
      }
    }
  }

  /** The text printed for the standard input by a `-` that follows
      `earlier` other `-` arguments.  In line mode every `-` wraps the
      standard input in a new buffered reader, and the model gives each one
      the whole input (see the README).  In byte mode the standard input is
      read directly, once per `-`, so each `-` takes the `k` bytes after
      those the earlier ones took. */
  function StdinBody(cfg: HeadConfig, stdin: string, earlier: nat, decode: seq<byte> -> string): (r: string)
    ensures earlier == 0 || cfg.bytes.None? ==> r == Body(cfg, stdin, decode)
    ensures cfg.bytes.Some? ==> r == decode(ByteChunk(Encode(stdin), earlier * cfg.bytes.value, cfg.bytes.value))
  {
    match cfg.bytes
    case None => Body(cfg, stdin, decode)
    case Some(k) =>
      var bs := Encode(stdin);
      assert ByteChunk(bs, 0, k) == bs[..if k < |bs| then k else |bs|];
      decode(ByteChunk(bs, earlier * k, k))
  }

  /** What the run does for one named input: print an optional header and
      a body, or report that the file could not be opened. */
  datatype Report = Shown(header: string, body: string) | OpenFailed(name: string)

  /** `run`: each named input in turn, by its index in the list.  `files`
      stands for the file system (the contents of a file, or `None` when it
      cannot be opened) and `stdin` for the standard input, read for `-`. */
  function HeadRun(cfg: HeadConfig, names: seq<string>, files: string -> Option<string>, stdin: string,
                   decode: seq<byte> -> string): (r: seq<Report>)
    ensures |r| == |names|
    ensures forall i | 0 <= i < |r| :: r[i].OpenFailed? <==> names[i] != "-" && files(names[i]).None?
    ensures forall i | 0 <= i < |r| ::
      r[i].Shown? && r[i].header != "" <==> names[i] != "-" && files(names[i]).Some? && |names| > 1
    ensures forall i | 0 <= i < |r| :: r[i].Shown? && r[i].header != "" ==>
      r[i].header == (if i > 0 then "\n" else "") + "==> " + names[i] + " <==\n"
    ensures forall i | 0 <= i < |r| :: names[i] == "-" ==> r[i] == Shown("", StdinBody(cfg, stdin, Dashes(names[..i]), decode))
    ensures forall i | 0 <= i < |r| :: names[i] == "-" && "-" !in names[..i] ==> r[i] == Shown("", Body(cfg, stdin, decode))
    ensures forall i | 0 <= i < |r| :: names[i] != "-" && files(names[i]).Some? ==>
      r[i].body == Body(cfg, files(names[i]).value, decode)
  {
    seq(|names|, i requires 0 <= i < |names| =>
      if names[i] == "-" then Shown("", StdinBody(cfg, stdin, Dashes(names[..i]), decode))
      else
        match files(names[i])
        case None => OpenFailed(names[i])
        case Some(text) => Shown(if |names| > 1 then Header(names[i], i) else "", Body(cfg, text, decode)))
  }

  /** In byte mode, two `-` arguments with no `-` between them read
      consecutive stretches of the standard input's bytes `bs`: the second
      read starts at the byte after the last one the first read took. */
  lemma StdinReadsContinue(cfg: HeadConfig, names: seq<string>, bs: seq<byte>, i: nat, j: nat)
    requires cfg.bytes.Some? && i < j < |names| && names[i] == "-" && names[j] == "-"
    requires forall m | i < m < j :: names[m] != "-"
    ensures var k := cfg.bytes.value;
      var first, second := Dashes(names[..i]) * k, Dashes(names[..j]) * k;
      second == first + k &&
      ByteChunk(bs, first, k) + ByteChunk(bs, second, k) == ByteChunk(bs, first, k + k)
  {
    var k := cfg.bytes.value;
    var di := Dashes(names[..i]);
    DashesNext(names, i, j);
    NextMultiple(di, k);
    ChunksContinue(bs, di * k, (di + 1) * k, k);
  }

  lemma NextMultiple(d: nat, k: nat)
    ensures (d + 1) * k == d * k + k
  {
  }

  lemma ChunksContinue(bs: seq<byte>, first: nat, second: nat, k: nat)
    requires second == first + k
    ensures ByteChunk(bs, first, k) + ByteChunk(bs, second, k) == ByteChunk(bs, first, k + k)
  {
    ByteChunkAppend(bs, first, k, k);
  }

  lemma DashesNext(names: seq<string>, i: nat, j: nat)
    requires i < j <= |names| && names[i] == "-"
    requires forall m | i < m < j :: names[m] != "-"
    ensures Dashes(names[..j]) == Dashes(names[..i]) + 1
  {
    DashesNone(names, i + 1, j);
    DashesStep(names, i);
  }

  lemma DashesStep(names: seq<string>, i: nat)
    requires i < |names|
    ensures Dashes(names[..i + 1]) == Dashes(names[..i]) + (if names[i] == "-" then 1 else 0)
  {
    assert names[..i + 1][..i] == names[..i];
  }

  /** No `-` among `names[lo..hi]` leaves the count unchanged. */
  lemma {:induction false} DashesNone(names: seq<string>, lo: nat, hi: nat)
    requires lo <= hi <= |names|
    requires forall m | lo <= m < hi :: names[m] != "-"
    ensures Dashes(names[..hi]) == Dashes(names[..lo])
    decreases hi - lo
  {
    if lo < hi {
      DashesNone(names, lo, hi - 1);
      DashesStep(names, hi - 1);
    }
  }
}

=== FILE: outcomes.dfy ===
/** Result types shared by the models of the four utilities.

    The Rust sources return `Result<T, Box<dyn Error>>` and, in two places,
    panic instead of returning an error.  A panic is kept as a value of its
    own so that a contract can say exactly which inputs reach it.
 */
module Outcomes {

  /** The conventional Some/None datatype. */
  datatype Option<+T> = None | Some(value: T)

  /** What an operation of the utilities can end in: a value, an error the
      program reports, or a panic that aborts the process. */
  datatype Outcome<+T, +E> = Ok(value: T) | Err(error: E) | Panic(reason: string)

  /** Two outcomes, of possibly different value types, that fail the same
      way: the same error, or a panic for the same reason. */
  predicate SameFailure<T, U, E(==)>(a: Outcome<T, E>, b: Outcome<U, E>) {
    || (a.Err? && b.Err? && a.error == b.error)
    || (a.Panic? && b.Panic? && a.reason == b.reason)
  }
}

=== FILE: select.dfy ===
/** Selection of elements by position, the one idea behind the three
    extraction modes of `cut`: `positions.iter().filter_map(|p| xs.get(*p))`.
    A position past the end is skipped; order and repeats are kept.
 */
module Selection {

  /** The positions that index into a sequence of length `n`, in order. */
  function InRange(pos: seq<nat>, n: nat): (kept: seq<nat>)
    ensures |kept| <= |pos|
    ensures forall i | 0 <= i < |kept| :: kept[i] < n
    decreases |pos|
  {
    if pos == [] then []
    else (if pos[0] < n then [pos[0]] else []) + InRange(pos[1..], n)
  }

  /** When every position is in range, none is dropped. */
  lemma {:induction false} InRangeAll(pos: seq<nat>, n: nat)
    requires forall i | 0 <= i < |pos| :: pos[i] < n
    ensures InRange(pos, n) == pos
    decreases |pos|
  {
    if pos != [] {
      InRangeAll(pos[1..], n);
    }
  }

  /** Exactly the in-range positions are kept. */
  lemma {:induction false} InRangeMembers(pos: seq<nat>, n: nat, p: nat)
    ensures p in InRange(pos, n) <==> p in pos && p < n
    decreases |pos|
  {
    if pos != [] {
      InRangeMembers(pos[1..], n, p);
      assert pos == [pos[0]] + pos[1..];
    }
  }

  lemma {:induction false} InRangeAppend(p: seq<nat>, q: seq<nat>, n: nat)
    ensures InRange(p + q, n) == InRange(p, n) + InRange(q, n)
    decreases |p|
  {
    if p == [] {
      assert p + q == q;
    } else {
      assert (p + q)[1..] == p[1..] + q;
      InRangeAppend(p[1..], q, n);
    }
  }

  /** `pos.iter().filter_map(|p| xs.get(*p)).collect()`: one pass over the
      positions.  Its meaning is the element at each kept position, in the
      order of the positions. */
  function Select<T>(xs: seq<T>, pos: seq<nat>): (r: seq<T>)
    ensures |r| == |InRange(pos, |xs|)| <= |pos|
    ensures forall i | 0 <= i < |r| :: r[i] == xs[InRange(pos, |xs|)[i]]
    decreases |pos|
  {
    if pos == [] then []
    else
      var head := if pos[0] < |xs| then [xs[pos[0]]] else [];
      var rest := Select(xs, pos[1..]);
      assert InRange(pos, |xs|) == (if pos[0] < |xs| then [pos[0]] else []) + InRange(pos[1..], |xs|);
      head + rest
  }

  /** When every position is in range the result has one element per
      position. */
  lemma SelectAllInRange<T>(xs: seq<T>, pos: seq<nat>)
    requires forall i | 0 <= i < |pos| :: pos[i] < |xs|
    ensures |Select(xs, pos)| == |pos|
    ensures forall i | 0 <= i < |pos| :: Select(xs, pos)[i] == xs[pos[i]]
  {
    InRangeAll(pos, |xs|);
  }

  /** Selecting with a concatenation of position lists concatenates the
      selections. */
  lemma SelectAppend<T>(xs: seq<T>, p: seq<nat>, q: seq<nat>)
    ensures Select(xs, p + q) == Select(xs, p) + Select(xs, q)
  {
    InRangeAppend(p, q, |xs|);
    var l := Select(xs, p + q);
    var r := Select(xs, p) + Select(xs, q);
    assert |l| == |r|;
    forall i | 0 <= i < |l| ensures l[i] == r[i] {
      if i < |Select(xs, p)| {
        assert InRange(p + q, |xs|)[i] == InRange(p, |xs|)[i];
      } else {
        var j := i - |Select(xs, p)|;
        assert InRange(p + q, |xs|)[i] == InRange(q, |xs|)[j];
      }
    }
  }

  /** An element is selected exactly when some in-range position points at
      it. */
  lemma SelectMembers<T>(xs: seq<T>, pos: seq<nat>, x: T)
    ensures x in Select(xs, pos) <==> exists p :: p in pos && p < |xs| && xs[p] == x
  {
    var kept := InRange(pos, |xs|);
    var r := Select(xs, pos);
    if x in r {
      var i :| 0 <= i < |r| && r[i] == x;
      InRangeMembers(pos, |xs|, kept[i]);
    }
    if exists p :: p in pos && p < |xs| && xs[p] == x {
      var p :| p in pos && p < |xs| && xs[p] == x;
      InRangeMembers(pos, |xs|, p);
      var i :| 0 <= i < |kept| && kept[i] == p;
      assert r[i] == x;
    }
  }

  /** What every selection satisfies: it only holds elements of the
      sequence, and with every position in range it has one element per
      position. */
  lemma SelectFacts<T>(xs: seq<T>, pos: seq<nat>)
    ensures xs == [] ==> Select(xs, pos) == []
    ensures forall x | x in Select(xs, pos) :: x in xs
    ensures (forall i | 0 <= i < |pos| :: pos[i] < |xs|) ==>
      |Select(xs, pos)| == |pos| && forall i | 0 <= i < |pos| :: Select(xs, pos)[i] == xs[pos[i]]
  {
    forall x | x in Select(xs, pos) ensures x in xs {
      SelectMembers(xs, pos, x);
    }
    if forall i | 0 <= i < |pos| :: pos[i] < |xs| {
      SelectAllInRange(xs, pos);
    }
  }
}

=== FILE: text.dfy ===
/** Text helpers of the Rust standard library that the utilities lean on:
    `str::split` on one character, `str::trim_end`, and the way
    `BufRead::read_line` and `BufRead::lines` cut a stream into lines.
 */
module Text {

  /** Concatenation of a sequence of strings. */
  function Concat(parts: seq<string>): string
    decreases |parts|
  {
    if parts == [] then "" else Concat(parts[..|parts| - 1]) + parts[|parts| - 1]
  }

  lemma {:induction false} ConcatAppend(a: seq<string>, b: seq<string>)
    ensures Concat(a + b) == Concat(a) + Concat(b)
    decreases |b|
  {
    if b == [] {
      assert a + b == a;
    } else {
      var front, last := b[..|b| - 1], b[|b| - 1];
      assert a + b == (a + front) + [last];
      assert (a + b)[..|a + b| - 1] == a + front;
      ConcatAppend(a, front);
      assert Concat(a + b) == Concat(a + front) + last;
      assert Concat(b) == Concat(front) + last;
    }
  }

  lemma ConcatCons(s: string, rest: seq<string>)
    ensures Concat([s] + rest) == s + Concat(rest)
  {
    ConcatAppend([s], rest);
    assert [s][..0] == [];
  }

  // ---------------------------------------------------------------------
  // str::split(',')

  /** Joins pieces with the separator `d` between consecutive ones. */
  function Join(parts: seq<string>, d: char): string
    decreases |parts|
  {
    if parts == [] then ""
    else if |parts| == 1 then parts[0]
    else parts[0] + [d] + Join(parts[1..], d)
  }

  /** `s.split(d)` for a one-character pattern: the maximal pieces between
      separators, in order.  There is always at least one piece, so an
      empty string gives one empty piece and `"1,,2"` gives an empty middle
      piece. */
  function SplitOn(s: string, d: char): (parts: seq<string>)
    ensures |parts| >= 1
    ensures forall i | 0 <= i < |parts| :: d !in parts[i]
    ensures Join(parts, d) == s
    decreases |s|
  {
    if s == [] then [""]
    else
      var rest := SplitOn(s[1..], d);
      if s[0] == d then
        assert [d] + Join(rest, d) == s;
        JoinEmptyHead(rest, d);
        [""] + rest
      else
        var parts := [[s[0]] + rest[0]] + rest[1..];
        assert Join(parts, d) == s by {
          if |rest| == 1 {
            assert Join(rest, d) == rest[0];
          } else {
            assert Join(rest, d) == rest[0] + [d] + Join(rest[1..], d);
            assert parts[1..] == rest[1..];
          }
        }
        assert d !in parts[0];
        parts
  }

  lemma JoinEmptyHead(rest: seq<string>, d: char)
    requires |rest| >= 1
    ensures Join([""] + rest, d) == [d] + Join(rest, d)
  {
    assert ([""] + rest)[1..] == rest;
  }

  /** Splitting a string with one more separator in it gives the pieces of
      both sides. */
  lemma {:induction false} SplitOnAppend(a: string, b: string, d: char)
    ensures SplitOn(a + [d] + b, d) == SplitOn(a, d) + SplitOn(b, d)
    decreases |a|
  {
    if a == [] {
      assert a + [d] + b == [d] + b;
      assert ([d] + b)[1..] == b;
    } else {
      assert (a + [d] + b)[1..] == a[1..] + [d] + b;
      assert (a + [d] + b)[0] == a[0];
      SplitOnAppend(a[1..], b, d);
    }
  }

  // ---------------------------------------------------------------------
  // str::trim_end

  /** `char::is_whitespace`: the characters with the Unicode White_Space
      property. */
  predicate IsWhiteSpace(c: char) {
    var n := c as int;
    || 0x09 <= n <= 0x0D
    || n == 0x20
    || n == 0x85
    || n == 0xA0
    || n == 0x1680
    || 0x2000 <= n <= 0x200A
    || n == 0x2028
    || n == 0x2029
    || n == 0x202F
    || n == 0x205F
    || n == 0x3000
  }

  /** `s.trim_end()`: the longest prefix of `s` that does not end in white
      space. */
  function TrimEnd(s: string): string
    decreases |s|
  {
    if s == [] || !IsWhiteSpace(s[|s| - 1]) then s else TrimEnd(s[..|s| - 1])
  }

  /** What `TrimEnd` keeps: a prefix of the text that does not end in white
      space, and only white space after it. */
  lemma {:induction false} TrimEndMeaning(s: string)
    ensures var r := TrimEnd(s);
      && |r| <= |s| && r == s[..|r|]
      && (r == [] || !IsWhiteSpace(r[|r| - 1]))
      && (forall i | |r| <= i < |s| :: IsWhiteSpace(s[i]))
    decreases |s|
  {
    if s != [] && IsWhiteSpace(s[|s| - 1]) {
      var front := s[..|s| - 1];
      TrimEndMeaning(front);
      var r := TrimEnd(front);
      assert s[..|r|] == front[..|r|];
    }
  }

  // ---------------------------------------------------------------------
  // BufRead::read_line and BufRead::lines

  /** A piece `read_line` can hand back: not empty, and no newline before
      its last character. */
  predicate IsReadLine(line: string) {
    line != [] && '\n' !in line[..|line| - 1]
  }

  predicate EndsWithNewline(line: string) {
    line != [] && line[|line| - 1] == '\n'
  }

  /** What one `read_line` call hands back: everything up to and including
      the first newline, or the rest of the input when no newline is left. */
  function FirstLine(text: string): (line: string)
    requires text != []
    ensures IsReadLine(line)
    ensures |line| <= |text| && line == text[..|line|]
    ensures EndsWithNewline(line) || line == text
    decreases |text|
  {
    if text[0] == '\n' || |text| == 1 then text[..1]
    else
      var rest := FirstLine(text[1..]);
      assert [text[0]] + rest == text[..1 + |rest|];
      assert ([text[0]] + rest)[..|rest|] == [text[0]] + rest[..|rest| - 1];
      [text[0]] + rest
  }

  /** The successive `read_line` results on `text` until one reads nothing.
      Every piece ends with its newline except possibly the last, and the
      pieces put back together give the input. */
  function ReadLines(text: string): (lines: seq<string>)
    ensures Concat(lines) == text
    ensures forall i | 0 <= i < |lines| :: IsReadLine(lines[i])
    ensures forall i | 0 <= i < |lines| - 1 :: EndsWithNewline(lines[i])
    decreases |text|
  {
    if text == [] then []
    else
      var line := FirstLine(text);
      var rest := ReadLines(text[|line|..]);
      ConcatCons(line, rest);
      assert line + text[|line|..] == text;
      assert rest != [] ==> line != text;
      [line] + rest
  }

  /** What `BufRead::lines` makes of one `read_line` result: the newline is
      dropped, and then a carriage return before it. */
  function StripLineEnd(line: string): string {
    if |line| > 0 && line[|line| - 1] == '\n' then
      var l := line[..|line| - 1];
      if |l| > 0 && l[|l| - 1] == '\r' then l[..|l| - 1] else l
    else line
  }

  /** A `read_line` result is a line followed by the line end `lines`
      drops: nothing at the end of the input, a newline, or a carriage
      return and a newline. */
  predicate LineWithEnd(raw: string, line: string) {
    || (raw == line && !EndsWithNewline(raw))
    || (raw == line + "\n" && (line == [] || line[|line| - 1] != '\r'))
    || raw == line + "\r\n"
  }

  /** `BufRead::lines`: the `read_line` results without their line ends. */
  function Lines(text: string): (lines: seq<string>)
    ensures |lines| == |ReadLines(text)|
    ensures forall i | 0 <= i < |lines| :: '\n' !in lines[i]
    ensures forall i | 0 <= i < |lines| :: LineWithEnd(ReadLines(text)[i], lines[i])
  {
    var raw := ReadLines(text);
    StripAll(raw);
    seq(|raw|, i requires 0 <= i < |raw| => StripLineEnd(raw[i]))
  }

  lemma StripLineEndNoNewline(line: string)
    requires IsReadLine(line)
    ensures '\n' !in StripLineEnd(line)
  {
    var l := line[..|line| - 1];
    if line[|line| - 1] == '\n' {
      if |l| > 0 && l[|l| - 1] == '\r' {
        assert forall c | c in l[..|l| - 1] :: c in l;
      }
    } else {
      assert line == l + [line[|line| - 1]];
    }
  }

  lemma StripLineEndWithEnd(line: string)
    ensures LineWithEnd(line, StripLineEnd(line))
  {
    if |line| > 0 && line[|line| - 1] == '\n' {
      var l := line[..|line| - 1];
      assert line == l + "\n";
      if |l| > 0 && l[|l| - 1] == '\r' {
        assert line == l[..|l| - 1] + "\r\n";
      }
    }
  }

  lemma StripAll(raw: seq<string>)
    requires forall i | 0 <= i < |raw| :: IsReadLine(raw[i])
    ensures forall i | 0 <= i < |raw| :: '\n' !in StripLineEnd(raw[i])
    ensures forall i | 0 <= i < |raw| :: LineWithEnd(raw[i], StripLineEnd(raw[i]))
  {
    forall i | 0 <= i < |raw| ensures '\n' !in StripLineEnd(raw[i]) && LineWithEnd(raw[i], StripLineEnd(raw[i])) {
      StripLineEndNoNewline(raw[i]);
      StripLineEndWithEnd(raw[i]);
    }
  }
}

=== FILE: uniq.dfy ===
/** `uniqr` (uniqr/src/lib.rs): the adjacent-duplicate grouping loop.

    The loop keeps the first line of the current group (`prev_line`) and how
    many lines the group has absorbed (`count`).  A line opens a new group
    exactly when its `trim_end` differs from that of `prev_line`; the group
    it closes is written out only if its count is above zero.  `prev_line`
    starts as the empty string, so leading lines that are blank once
    trimmed join a group whose text is that empty string.

    The machine below is written once, parameterised by the initial value of
    `prev_line`: `Some("")` is the program as written, `None` ("no group
    yet") is the evidently intended variant in which the first line always
    opens a group.
 */
module Uniq {
  import opened Outcomes
  import opened Decimal
  import opened Text

  const U64_MAX: nat := 0xFFFF_FFFF_FFFF_FFFF

  /** One emitted group: how many consecutive lines it absorbed, and the
      text written for it. */
  datatype Group = Group(count: nat, line: string)

  datatype State = State(out: seq<Group>, prev: Option<string>, count: nat)

  // ---------------------------------------------------------------------
  // The loop

  /** Whether `line` opens a new group after the group whose first line is
      `prev`. */
  predicate OpensGroup(prev: Option<string>, line: string) {
    prev.None? || TrimEnd(line) != TrimEnd(prev.value)
  }

  /** The `print` closure: a group is written only when its count is above
      zero. */
  function Emit(count: nat, prev: Option<string>): seq<Group> {
    match prev
    case Some(p) => if count > 0 then [Group(count, p)] else []
    case None => []
  }

  /** One iteration of the loop, for one line as `read_line` returns it. */
  function Step(st: State, line: string): (r: State)
    requires st.prev.None? ==> st.count == 0
    ensures r.prev.Some? && r.count > 0
    ensures st.out <= r.out && |r.out| <= |st.out| + 1
    ensures Total(r.out) + r.count == Total(st.out) + st.count + 1
    ensures r.out == st.out <==> !OpensGroup(st.prev, line) || st.count == 0 || st.prev.None?
    ensures OpensGroup(st.prev, line) ==> r.prev == Some(line) && r.count == 1
  {
    if OpensGroup(st.prev, line) then
      var out := st.out + Emit(st.count, st.prev);
      assert Total(out) == Total(st.out) + st.count by {
        if st.count > 0 && st.prev.Some? {
          TotalSnoc(st.out, Group(st.count, st.prev.value));
        } else {
          assert out == st.out;
        }
      }
      State(out, Some(line), 1)
    else st.(count := st.count + 1)
  }

  /** The loop over all lines, from the initial `prev_line`. */
  function Run(init: Option<string>, lines: seq<string>): (st: State)
    ensures st.prev.None? ==> st.count == 0
    decreases |lines|
  {
    if lines == [] then State([], init, 0)
    else Step(Run(init, lines[..|lines| - 1]), lines[|lines| - 1])
  }

  /** The guard after the loop.  `!count` is the bitwise complement of a
      u64, which is `U64_MAX - count`; the guard therefore holds for every
      count below `U64_MAX - 1`, and is not the `count > 1` it resembles. */
  predicate FinalGuard(count: nat) {
    count <= U64_MAX && U64_MAX - count > 1
  }

  /** `read_line` in uniqr/src/lib.rs: the groups written, in order. */
  function UniqGroups(lines: seq<string>): (gs: seq<Group>)
    ensures forall i | 0 <= i < |gs| :: gs[i].count > 0
  {
    var st := Run(Some(""), lines);
    RunPositive(Some(""), lines);
    st.out + (if FinalGuard(st.count) then Emit(st.count, st.prev) else [])
  }

  /** The same loop with no initial group, so that the first line always
      opens one, and the final group flushed unconditionally. */
  function CorrectedGroups(lines: seq<string>): (gs: seq<Group>)
    ensures forall i | 0 <= i < |gs| :: gs[i].count > 0
  {
    var st := Run(None, lines);
    RunPositive(None, lines);
    st.out + Emit(st.count, st.prev)
  }

  lemma {:induction false} RunPositive(init: Option<string>, lines: seq<string>)
    ensures forall i | 0 <= i < |Run(init, lines).out| :: Run(init, lines).out[i].count > 0
    decreases |lines|
  {
    if lines != [] {
      RunPositive(init, lines[..|lines| - 1]);
    }
  }

  // ---------------------------------------------------------------------
  // Output

  /** What is written for one group: the line alone, or with `-c` the
      count right-aligned to width 4 and a space before it. */
  function Render(g: Group, counting: bool): (r: string)
    ensures !counting ==> r == g.line
    ensures counting ==> |r| >= 5 + |g.line| && r[|r| - |g.line|..] == g.line && r[|r| - |g.line| - 1] == ' '
    ensures counting ==> r[..|r| - |g.line| - 1] == PadLeft(Show(g.count), 4)
  {
    if counting then PadLeft(Show(g.count), 4) + " " + g.line else g.line
  }

  /** With `-c` a written group can be taken apart again: the line is
      what follows the space after the count, and the text before that
      space, read without its leading spaces, is the count. */
  lemma RenderRoundTrip(g: Group)
    requires g.count <= U64_MAX
    ensures var r := Render(g, true);
      var k := |r| - |g.line| - 1;
      0 <= k && r[k] == ' ' && r[k + 1..] == g.line && ParseUsize(DropSpaces(r[..k])) == Ok(g.count)
  {
    ShowPaddedRoundTrip(g.count, 4);
  }

  function Output(gs: seq<Group>, counting: bool): string
    decreases |gs|
  {
    if gs == [] then "" else Output(gs[..|gs| - 1], counting) + Render(gs[|gs| - 1], counting)
  }

  /** Everything the program writes for an input text.  Empty input gives
      empty output, and without `-c` text with no adjacent repeats and a
      non-blank first line is written back verbatim. */
  function UniqOutput(text: string, counting: bool): (r: string)
    ensures text == [] ==> r == []
    ensures var lines := ReadLines(text);
      && !counting && lines != [] && TrimEnd(lines[0]) != "" && NoAdjacentRepeats(lines)
      && |lines| < U64_MAX - 1
      ==> r == text
  {
    var lines := ReadLines(text);
    assert text == [] ==> Output(UniqGroups(lines), counting) == [] by {
      if text == [] {
        assert lines == [];
        assert UniqGroups(lines) == [];
      }
    }
    assert !counting && lines != [] && TrimEnd(lines[0]) != "" && NoAdjacentRepeats(lines) && |lines| < U64_MAX - 1
      ==> Output(UniqGroups(lines), counting) == text by {
      if !counting && lines != [] && TrimEnd(lines[0]) != "" && NoAdjacentRepeats(lines) && |lines| < U64_MAX - 1 {
        UniqDistinct(lines);
        OutputSingles(lines);
      }
    }
    Output(UniqGroups(lines), counting)
  }

  // ---------------------------------------------------------------------
  // What the groups mean

  /** The trimmed text of every line. */
  function Trims(lines: seq<string>): (r: seq<string>)
    ensures |r| == |lines| && forall i | 0 <= i < |lines| :: r[i] == TrimEnd(lines[i])
  {
    seq(|lines|, i requires 0 <= i < |lines| => TrimEnd(lines[i]))
  }

  function Repeat(x: string, n: nat): (r: seq<string>)
    ensures |r| == n && forall i | 0 <= i < n :: r[i] == x
  {
    seq(n, _ => x)
  }

  /** The number of lines the groups absorbed. */
  function Total(gs: seq<Group>): nat
    decreases |gs|
  {
    if gs == [] then 0 else Total(gs[..|gs| - 1]) + gs[|gs| - 1].count
  }

  /** The index of the first line of group `i`. */
  function Offset(gs: seq<Group>, i: nat): nat
    requires i <= |gs|
  {
    Total(gs[..i])
  }

  /** The trimmed text of each group, once for every line it absorbed. */
  function Expand(gs: seq<Group>): seq<string>
    decreases |gs|
  {
    if gs == [] then []
    else Expand(gs[..|gs| - 1]) + Repeat(TrimEnd(gs[|gs| - 1].line), gs[|gs| - 1].count)
  }

  /** The input's first lines join the initial group instead of opening
      one. */
  predicate Absorbed(init: Option<string>, lines: seq<string>) {
    lines != [] && !OpensGroup(init, lines[0])
  }

  /** The text written for group `i`, whose first line is `lines[k]`: that
      line verbatim, except for a first group that the initial value took
      over. */
  function Representative(init: Option<string>, lines: seq<string>, i: nat, k: nat): string
    requires k < |lines|
  {
    if i == 0 && Absorbed(init, lines) then init.value else lines[k]
  }

  /** What a sequence of groups says about the input lines it came from. */
  predicate GroupsOf(init: Option<string>, lines: seq<string>, gs: seq<Group>) {
    && (forall i | 0 <= i < |gs| :: gs[i].count > 0)
    && (forall i | 0 <= i < |gs| - 1 :: TrimEnd(gs[i].line) != TrimEnd(gs[i + 1].line))
    && Total(gs) == |lines|
    && Expand(gs) == Trims(lines)
    && (forall i | 0 <= i < |gs| ::
          Offset(gs, i) < |lines| && gs[i].line == Representative(init, lines, i, Offset(gs, i)))
  }

  function Pending(st: State): seq<string> {
    if st.prev.Some? then Repeat(TrimEnd(st.prev.value), st.count) else []
  }

  /** The loop invariant, in four parts.  Before any line the state is
      the initial one, and afterwards a group is open. */
  predicate Shape(init: Option<string>, lines: seq<string>, st: State) {
    && (lines == [] ==> st == State([], init, 0))
    && (lines != [] ==> st.count > 0 && st.prev.Some?)
  }

  /** The groups written so far, followed by the open group, account for
      every line read, in order. */
  predicate Counted(lines: seq<string>, st: State) {
    && Total(st.out) + st.count == |lines|
    && Expand(st.out) + Pending(st) == Trims(lines)
  }

  /** Groups are non-empty and each differs from the next, the open one
      included. */
  predicate Separated(st: State) {
    && (forall i | 0 <= i < |st.out| :: st.out[i].count > 0)
    && (forall i | 0 <= i < |st.out| - 1 :: TrimEnd(st.out[i].line) != TrimEnd(st.out[i + 1].line))
    && (st.out != [] ==> st.prev.Some? && TrimEnd(st.out[|st.out| - 1].line) != TrimEnd(st.prev.value))
  }

  /** Each group, the open one included, holds its representative. */
  predicate Represented(init: Option<string>, lines: seq<string>, st: State) {
    && (forall i | 0 <= i < |st.out| ::
          Offset(st.out, i) < |lines| && st.out[i].line == Representative(init, lines, i, Offset(st.out, i)))
    && (st.count > 0 ==>
          Total(st.out) < |lines| && st.prev.Some? &&
          st.prev.value == Representative(init, lines, |st.out|, Total(st.out)))
  }

  lemma TotalSnoc(gs: seq<Group>, g: Group)
    ensures Total(gs + [g]) == Total(gs) + g.count
    ensures Expand(gs + [g]) == Expand(gs) + Repeat(TrimEnd(g.line), g.count)
  {
    assert (gs + [g])[..|gs|] == gs;
  }

  lemma OffsetSnoc(gs: seq<Group>, g: Group, i: nat)
    requires i <= |gs|
    ensures Offset(gs + [g], i) == Offset(gs, i)
  {
    assert (gs + [g])[..i] == gs[..i];
  }

  lemma OffsetAll(gs: seq<Group>)
    ensures Offset(gs, |gs|) == Total(gs)
  {
    assert gs[..|gs|] == gs;
  }

  lemma TrimsFront(lines: seq<string>)
    requires lines != []
    ensures Trims(lines) == Trims(lines[..|lines| - 1]) + [TrimEnd(lines[|lines| - 1])]
  {
  }

  lemma StepShape(init: Option<string>, lines: seq<string>)
    requires lines != []
    requires Shape(init, lines[..|lines| - 1], Run(init, lines[..|lines| - 1]))
    ensures Shape(init, lines, Run(init, lines))
  {
  }

  lemma StepCounted(init: Option<string>, lines: seq<string>)
    requires lines != []
    requires var front := lines[..|lines| - 1];
      Shape(init, front, Run(init, front)) && Counted(front, Run(init, front))
    ensures Counted(lines, Run(init, lines))
  {
    var front := lines[..|lines| - 1];
    var l := lines[|lines| - 1];
    var st := Run(init, front);
    var st' := Run(init, lines);
    assert st' == Step(st, l);
    TrimsFront(lines);
    if OpensGroup(st.prev, l) {
      if st.count > 0 {
        var g := Group(st.count, st.prev.value);
        assert st'.out == st.out + [g];
        TotalSnoc(st.out, g);
      } else {
        assert st'.out == st.out;
      }
      assert Pending(st') == [TrimEnd(l)];
    } else {
      assert Pending(st') == Pending(st) + [TrimEnd(l)];
    }
  }

  lemma StepSeparated(init: Option<string>, lines: seq<string>)
    requires lines != []
    requires var front := lines[..|lines| - 1];
      Shape(init, front, Run(init, front)) && Separated(Run(init, front))
    ensures Separated(Run(init, lines))
  {
    var st := Run(init, lines[..|lines| - 1]);
    var l := lines[|lines| - 1];
    assert Run(init, lines) == Step(st, l);
    if !OpensGroup(st.prev, l) {
      assert Step(st, l) == st.(count := st.count + 1);
    } else if st.count == 0 {
      assert st.out == [];
      assert Step(st, l) == State([], Some(l), 1);
    } else {
      SeparatedOpen(st, l);
    }
  }

  lemma SeparatedOpen(st: State, l: string)
    requires Separated(st) && st.count > 0 && st.prev.Some? && OpensGroup(st.prev, l)
    ensures Separated(Step(st, l))
  {
    var g := Group(st.count, st.prev.value);
    var out := st.out + [g];
    assert Step(st, l) == State(out, Some(l), 1);
    assert forall i | 0 <= i < |st.out| :: out[i] == st.out[i];
    assert out[|st.out|] == g;
    assert TrimEnd(g.line) != TrimEnd(l);
  }

  lemma StepRepresented(init: Option<string>, lines: seq<string>)
    requires lines != []
    requires var front := lines[..|lines| - 1];
      var st := Run(init, front);
      Shape(init, front, st) && Total(st.out) + st.count == |front| && Represented(init, front, st)
    ensures Represented(init, lines, Run(init, lines))
  {
    var front := lines[..|lines| - 1];
    var l := lines[|lines| - 1];
    var st := Run(init, front);
    SplitLast(lines);
    assert Run(init, lines) == Step(st, l);
    if front == [] {
      assert st == State([], init, 0);
      assert lines == [l];
      RepresentedFirst(init, l);
    } else if OpensGroup(st.prev, l) {
      RepresentedOpen(init, lines, front, st, l);
    } else {
      RepresentedSame(init, lines, front, st, l);
    }
  }

  lemma SplitLast(lines: seq<string>)
    requires lines != []
    ensures lines == lines[..|lines| - 1] + [lines[|lines| - 1]]
  {
  }

  lemma RepresentedFirst(init: Option<string>, l: string)
    ensures Represented(init, [l], Step(State([], init, 0), l))
  {
    var st' := Step(State([], init, 0), l);
    if OpensGroup(init, l) {
      assert st' == State([], Some(l), 1);
    } else {
      assert st' == State([], init, 1);
    }
    assert Total([]) == 0;
  }

  /** Reading one more line leaves the representative of an earlier group
      unchanged. */
  lemma RepresentativeExtends(init: Option<string>, front: seq<string>, l: string, i: nat, k: nat)
    requires front != [] && k < |front|
    ensures Representative(init, front + [l], i, k) == Representative(init, front, i, k)
  {
    assert (front + [l])[0] == front[0];
    assert (front + [l])[k] == front[k];
  }

  lemma RepresentedOpen(init: Option<string>, lines: seq<string>, front: seq<string>, st: State, l: string)
    requires front != [] && lines == front + [l]
    requires Shape(init, front, st) && Total(st.out) + st.count == |front| && Represented(init, front, st)
    requires OpensGroup(st.prev, l)
    ensures Represented(init, lines, Step(st, l))
  {
    var st' := Step(st, l);
    var g := Group(st.count, st.prev.value);
    assert st'.out == st.out + [g];
    TotalSnoc(st.out, g);
    OffsetAll(st.out);
    OffsetAll(st'.out);
    forall i | 0 <= i < |st'.out|
      ensures Offset(st'.out, i) < |lines| &&
              st'.out[i].line == Representative(init, lines, i, Offset(st'.out, i))
    {
      OffsetSnoc(st.out, g, i);
      RepresentativeExtends(init, front, l, i, Offset(st.out, i));
    }
    assert Representative(init, lines, |st'.out|, Total(st'.out)) == l;
  }

  lemma RepresentedSame(init: Option<string>, lines: seq<string>, front: seq<string>, st: State, l: string)
    requires front != [] && lines == front + [l]
    requires Shape(init, front, st) && Total(st.out) + st.count == |front| && Represented(init, front, st)
    requires !OpensGroup(st.prev, l)
    ensures Represented(init, lines, Step(st, l))
  {
    forall i | 0 <= i < |st.out|
      ensures Representative(init, lines, i, Offset(st.out, i)) == Representative(init, front, i, Offset(st.out, i))
    {
      RepresentativeExtends(init, front, l, i, Offset(st.out, i));
    }
    RepresentativeExtends(init, front, l, |st.out|, Total(st.out));
  }

  lemma {:induction false} RunInv(init: Option<string>, lines: seq<string>)
    ensures var st := Run(init, lines);
      Shape(init, lines, st) && Counted(lines, st) && Separated(st) && Represented(init, lines, st)
    decreases |lines|
  {
    if lines != [] {
      RunInv(init, lines[..|lines| - 1]);
      StepShape(init, lines);
      StepCounted(init, lines);
      StepSeparated(init, lines);
      StepRepresented(init, lines);
    }
  }

  /** Closing the open group keeps every fact about the written groups. */
  lemma CloseGroup(init: Option<string>, lines: seq<string>, st: State)
    requires Shape(init, lines, st) && Counted(lines, st) && Separated(st) && Represented(init, lines, st)
    requires lines != []
    ensures GroupsOf(init, lines, st.out + Emit(st.count, st.prev))
  {
    var gs := st.out + Emit(st.count, st.prev);
    CloseSeparated(st, gs);
    CloseCounted(lines, st, gs);
    CloseRepresented(init, lines, st, gs);
  }

  lemma CloseSeparated(st: State, gs: seq<Group>)
    requires Separated(st) && st.count > 0 && st.prev.Some? && gs == st.out + Emit(st.count, st.prev)
    ensures forall i | 0 <= i < |gs| :: gs[i].count > 0
    ensures forall i | 0 <= i < |gs| - 1 :: TrimEnd(gs[i].line) != TrimEnd(gs[i + 1].line)
  {
    assert gs == st.out + [Group(st.count, st.prev.value)];
    assert forall i | 0 <= i < |st.out| :: gs[i] == st.out[i];
  }

  lemma CloseCounted(lines: seq<string>, st: State, gs: seq<Group>)
    requires Counted(lines, st) && st.count > 0 && st.prev.Some? && gs == st.out + Emit(st.count, st.prev)
    ensures Total(gs) == |lines| && Expand(gs) == Trims(lines)
  {
    assert gs == st.out + [Group(st.count, st.prev.value)];
    TotalSnoc(st.out, Group(st.count, st.prev.value));
  }

  lemma CloseRepresented(init: Option<string>, lines: seq<string>, st: State, gs: seq<Group>)
    requires Represented(init, lines, st) && st.count > 0 && st.prev.Some? && gs == st.out + Emit(st.count, st.prev)
    ensures forall i | 0 <= i < |gs| ::
      Offset(gs, i) < |lines| && gs[i].line == Representative(init, lines, i, Offset(gs, i))
  {
    var g := Group(st.count, st.prev.value);
    assert gs == st.out + [g];
    OffsetAll(st.out);
    forall i | 0 <= i < |gs|
      ensures Offset(gs, i) < |lines| && gs[i].line == Representative(init, lines, i, Offset(gs, i))
    {
      OffsetSnoc(st.out, g, i);
    }
  }

  // ---------------------------------------------------------------------
  // Properties

  /** The groups written once the open group is closed. */
  function Flushed(init: Option<string>, lines: seq<string>): seq<Group> {
    var st := Run(init, lines);
    st.out + Emit(st.count, st.prev)
  }

  lemma FlushedMeaning(init: Option<string>, lines: seq<string>)
    ensures GroupsOf(init, lines, Flushed(init, lines))
    ensures Run(init, lines).count <= |lines|
  {
    RunInv(init, lines);
    if lines == [] {
      assert Flushed(init, lines) == [];
    } else {
      CloseGroup(init, lines, Run(init, lines));
    }
  }

  /** For any input short of 2^64 - 2 lines, the groups written partition
      the input into maximal runs of lines equal once trimmed: every line
      is counted once, in order, neighbouring groups differ, and each group
      is written as its first line verbatim -- except a leading run of
      blank lines, which is written as the empty string. */
  lemma UniqGroupsMeaning(lines: seq<string>)
    requires |lines| < U64_MAX - 1
    ensures var gs := UniqGroups(lines);
      && Total(gs) == |lines|
      && Expand(gs) == Trims(lines)
      && (forall i | 0 <= i < |gs| - 1 :: TrimEnd(gs[i].line) != TrimEnd(gs[i + 1].line))
      && (forall i | 0 <= i < |gs| :: Offset(gs, i) < |lines| &&
            gs[i].line == if i == 0 && TrimEnd(lines[0]) == "" then "" else lines[Offset(gs, i)])
  {
    FlushedMeaning(Some(""), lines);
    var gs := UniqGroups(lines);
    assert gs == Flushed(Some(""), lines);
    assert TrimEnd("") == "";
    forall i | 0 <= i < |gs|
      ensures gs[i].line == if i == 0 && TrimEnd(lines[0]) == "" then "" else lines[Offset(gs, i)]
    {
      assert gs[i].line == Representative(Some(""), lines, i, Offset(gs, i));
    }
  }

  /** The guard after the loop lets the open group through for any input
      short of 2^64 - 2 lines: what is written ends with the group of the
      last line, with every line the loop counted for it. */
  lemma LastGroupFlushed(lines: seq<string>)
    requires 0 < |lines| < U64_MAX - 1
    ensures var gs, st := UniqGroups(lines), Run(Some(""), lines);
      && gs == st.out + [Group(st.count, st.prev.value)]
      && TrimEnd(gs[|gs| - 1].line) == TrimEnd(lines[|lines| - 1])
  {
    var st := Run(Some(""), lines);
    RunInv(Some(""), lines);
    var gs := UniqGroups(lines);
    UniqGroupsMeaning(lines);
    var last := gs[|gs| - 1];
    assert Expand(gs) == Expand(gs[..|gs| - 1]) + Repeat(TrimEnd(last.line), last.count);
    assert Expand(gs)[|lines| - 1] == Trims(lines)[|lines| - 1];
  }

  /** One group per line, each of count one. */
  function Singles(lines: seq<string>): (gs: seq<Group>)
    ensures |gs| == |lines| && forall i | 0 <= i < |lines| :: gs[i] == Group(1, lines[i])
    decreases |lines|
  {
    if lines == [] then [] else Singles(lines[..|lines| - 1]) + [Group(1, lines[|lines| - 1])]
  }

  /** No two neighbouring lines are equal once trimmed. */
  predicate NoAdjacentRepeats(lines: seq<string>) {
    forall i | 0 <= i < |lines| - 1 :: TrimEnd(lines[i]) != TrimEnd(lines[i + 1])
  }

  /** Input with no two neighbouring lines equal once trimmed, whose first
      line opens a group, forms one group per line. */
  lemma {:induction false} RunDistinct(init: Option<string>, lines: seq<string>)
    requires lines != [] && OpensGroup(init, lines[0])
    requires NoAdjacentRepeats(lines)
    ensures Run(init, lines) == State(Singles(lines[..|lines| - 1]), Some(lines[|lines| - 1]), 1)
    decreases |lines|
  {
    var n := |lines|;
    if n > 1 {
      var front := lines[..n - 1];
      NoAdjacentRepeatsPrefix(lines);
      RunDistinct(init, front);
      assert front[..n - 2] == lines[..n - 2];
      DistinctStep(Singles(lines[..n - 2]), lines[n - 2], lines[n - 1]);
      SinglesSnoc(lines, n - 2);
    } else {
      assert lines[..0] == [];
    }
  }

  lemma NoAdjacentRepeatsPrefix(lines: seq<string>)
    requires lines != [] && NoAdjacentRepeats(lines)
    ensures NoAdjacentRepeats(lines[..|lines| - 1])
  {
    var front := lines[..|lines| - 1];
    assert forall i | 0 <= i < |front| :: front[i] == lines[i];
  }

  lemma SinglesSnoc(lines: seq<string>, k: nat)
    requires k < |lines|
    ensures Singles(lines[..k + 1]) == Singles(lines[..k]) + [Group(1, lines[k])]
  {
    assert lines[..k + 1][..k] == lines[..k];
  }

  lemma DistinctStep(pre: seq<Group>, a: string, b: string)
    requires TrimEnd(a) != TrimEnd(b)
    ensures Step(State(pre, Some(a), 1), b) == State(pre + [Group(1, a)], Some(b), 1)
  {
  }

  lemma {:induction false} OutputSingles(lines: seq<string>)
    ensures Output(Singles(lines), false) == Concat(lines)
    decreases |lines|
  {
    if lines != [] {
      var n := |lines|;
      OutputSingles(lines[..n - 1]);
      assert Singles(lines)[..n - 1] == Singles(lines[..n - 1]);
      assert Concat(lines) == Concat(lines[..n - 1]) + lines[n - 1];
    }
  }

  /** Lines with no adjacent repeats and a non-blank first line form one
      group per line. */
  lemma UniqDistinct(lines: seq<string>)
    requires lines != [] && TrimEnd(lines[0]) != "" && NoAdjacentRepeats(lines)
    requires |lines| < U64_MAX - 1
    ensures UniqGroups(lines) == Singles(lines)
  {
    var n := |lines|;
    assert TrimEnd("") == "";
    RunDistinct(Some(""), lines);
    assert Singles(lines) == Singles(lines[..n - 1]) + [Group(1, lines[n - 1])];
  }

  // ---------------------------------------------------------------------
  // The leading blank line

  /** As written, a blank first line is not written back: its group is
      written as the empty string. */
  lemma LeadingBlankLineLost(rest: seq<string>)
    requires |rest| < U64_MAX - 2
    ensures |UniqGroups(["\n"] + rest)| > 0
    ensures UniqGroups(["\n"] + rest)[0].line == ""
    ensures CorrectedGroups(["\n"] + rest)[0].line == "\n"
  {
    var lines := ["\n"] + rest;
    assert lines[0] == "\n";
    assert TrimEnd("\n") == "" by {
      assert IsWhiteSpace('\n');
      assert TrimEnd("\n") == TrimEnd("\n"[..0]);
      assert "\n"[..0] == "";
    }
    UniqGroupsMeaning(lines);
    assert Total(UniqGroups(lines)) > 0;
    CorrectedGroupsMeaning(lines);
    assert Total(CorrectedGroups(lines)) > 0;
    assert Offset(CorrectedGroups(lines), 0) == 0;
  }

  /** With no initial group, every group is written as its own first line,
      for input of any length. */
  lemma CorrectedGroupsMeaning(lines: seq<string>)
    ensures var gs := CorrectedGroups(lines);
      && Total(gs) == |lines|
      && Expand(gs) == Trims(lines)
      && (forall i | 0 <= i < |gs| - 1 :: TrimEnd(gs[i].line) != TrimEnd(gs[i + 1].line))
      && (forall i | 0 <= i < |gs| :: Offset(gs, i) < |lines| && gs[i].line == lines[Offset(gs, i)])
  {
    FlushedMeaning(None, lines);
    var gs := CorrectedGroups(lines);
    assert gs == Flushed(None, lines);
    forall i | 0 <= i < |gs| ensures gs[i].line == lines[Offset(gs, i)] {
      assert gs[i].line == Representative(None, lines, i, Offset(gs, i));
    }
  }

  /** Everything the corrected loop writes for an input text. */
  function CorrectedOutput(text: string, counting: bool): string {
    Output(CorrectedGroups(ReadLines(text)), counting)
  }

  /** With the corrected loop, text with no adjacent repeats is written
      back verbatim whatever its first line, a blank one included. */
  lemma CorrectedIdentity(text: string)
    requires NoAdjacentRepeats(ReadLines(text))
    ensures CorrectedOutput(text, false) == text
  {
    var lines := ReadLines(text);
    var n := |lines|;
    if n == 0 {
      assert CorrectedGroups(lines) == [];
    } else {
      RunDistinct(None, lines);
      assert Singles(lines) == Singles(lines[..n - 1]) + [Group(1, lines[n - 1])];
      assert CorrectedGroups(lines) == Singles(lines);
      OutputSingles(lines);
    }
  }
}

=== FILE: utf8.dfy ===
/** The byte view of a Rust `str`: `str::as_bytes` is the UTF-8 encoding of
    its characters (section 3 of RFC 3629).  Decoding with replacement
    (`String::from_utf8_lossy`) is not defined here; the operations that
    use it take it as a parameter.
 */
module Utf8 {

  type byte = x: int | 0 <= x < 256

  /** The encoding of one Unicode scalar value: one byte below U+0080, two
      below U+0800, three below U+10000, four otherwise. */
  function EncodeChar(c: char): (bs: seq<byte>)
    ensures 1 <= |bs| <= 4
    ensures |bs| == 1 <==> (c as int) < 0x80
    ensures (c as int) < 0x80 ==> bs == [c as int]
    ensures (c as int) >= 0x80 ==> bs[0] >= 0xC0
  {
    var n := c as int;
    if n < 0x80 then [n]
    else if n < 0x800 then [0xC0 + n / 0x40, 0x80 + n % 0x40]
    else if n < 0x1_0000 then [0xE0 + n / 0x1000, 0x80 + (n / 0x40) % 0x40, 0x80 + n % 0x40]
    else [0xF0 + n / 0x4_0000, 0x80 + (n / 0x1000) % 0x40, 0x80 + (n / 0x40) % 0x40, 0x80 + n % 0x40]
  }

  /** `s.as_bytes()`. */
  function Encode(s: string): (bs: seq<byte>)
    ensures |bs| >= |s|
    decreases |s|
  {
    if s == [] then [] else EncodeChar(s[0]) + Encode(s[1..])
  }

  predicate IsAscii(s: string) {
    forall i | 0 <= i < |s| :: (s[i] as int) < 0x80
  }

  predicate IsAsciiBytes(bs: seq<byte>) {
    forall i | 0 <= i < |bs| :: bs[i] < 0x80
  }

  /** The characters of ASCII bytes, one per byte. */
  function AsciiChars(bs: seq<byte>): (s: string)
    requires IsAsciiBytes(bs)
    ensures |s| == |bs| && forall i | 0 <= i < |bs| :: s[i] as int == bs[i]
  {
    seq(|bs|, i requires 0 <= i < |bs| => bs[i] as char)
  }

  /** On ASCII text the byte view and the character view agree: one byte per
      character, with the character's code as its value. */
  lemma {:induction false} EncodeAscii(s: string)
    requires IsAscii(s)
    ensures |Encode(s)| == |s|
    ensures forall i | 0 <= i < |s| :: Encode(s)[i] == s[i] as int
    decreases |s|
  {
    if s != [] {
      EncodeAscii(s[1..]);
      assert Encode(s) == [s[0] as int] + Encode(s[1..]);
    }
  }

  /** A string is one byte long in UTF-8 exactly when it is a single ASCII
      character. */
  lemma EncodeSingleByte(s: string)
    ensures |Encode(s)| == 1 <==> |s| == 1 && (s[0] as int) < 0x80
    ensures |s| == 1 && (s[0] as int) < 0x80 ==> Encode(s) == [s[0] as int]
  {
    if |s| >= 1 {
      assert Encode(s) == EncodeChar(s[0]) + Encode(s[1..]);
    }
  }

  /** No string encodes to a lone lead byte: a buffer holding only the first
      byte of a multi-byte character is not valid UTF-8. */
  lemma LeadByteAloneIsNotText(s: string, b: byte)
    requires b >= 0xC0
    ensures Encode(s) != [b]
  {
    if s != [] {
      var e := EncodeChar(s[0]);
      assert Encode(s) == e + Encode(s[1..]);
      if |e| == 1 {
        assert Encode(s)[0] == e[0] < 0x80;
      } else {
        assert |Encode(s)| >= 2;
      }
    }
  }
}
